=== FILE: README.md ===
# Resume store and submission wizard, modelled in Dafny

This project models the account and resume store of a resume-management web
application (`mockApiService` in `services/api.ts`) and the local state helpers
of its resume submission wizard (`pages/SubmitResume.tsx`).

The store keeps five browser-storage keys: accounts, resumes, audit log, session
and password-reset tokens. Here they are one immutable `Types.Store` record. The
accounts key is an `Option`: `None` is the absent key, and the next read of the
accounts persists the default administrator `admin@resumanage.in` /
`password123`. Every store operation is a pure transition that returns a
`Types.Response`, which holds the store left behind and either the returned value
or the thrown error (`Types.ApiError`, one constructor per message of the source).
The store is returned on failure too. When an operation reads the accounts before
it throws (`login`, `register`, `requestPasswordReset`, `verifyEmail`,
`updateProfile`), the administrator seed is already persisted. `resetPassword`
checks its token before it reads the accounts, so an unknown or expired token
leaves storage untouched. The one exception is a token that names a property every
JavaScript object inherits, such as `constructor`. The token lookup finds that
property, its `expiry` is `undefined`, and the expiry test passes. The account
read then seeds the store and finds no owner, so the call fails with
`User not found`. The model follows this.

Modules:

- `Wrappers`: `Option` and `Result`.
- `Seqs`: `findIndex` and `filter`, with their laws.
- `Types`: the records of `types.ts`. A stored account also carries its password and its pending verification token.
- `Accounts`: the seed, login, registration, the reset-token and verification-token lifecycles, logout and profile updates.
- `Resumes`: listing with filters, lookup, create, update, delete.
- `Audit`: `logAction`. The new entry goes first and the log is capped at 100 entries.
- `Stats`: the derived part of `getDashboardStats`.
- `Wizard`: step navigation, the duplicate-free skill list, the attachment whitelist, repeatable education and experience entries, and submit.

Inputs that the source takes from its environment are parameters:

- Random ids and tokens: `newId`, `token`, `logId`, `resumeId`.
- The clock: `now`, in epoch milliseconds.
- The calendar-day test of `submittedToday`: `isToday`.

The source never checks that a random id is unique. Lemmas that need a fresh id or
an unshared token therefore take that as a precondition.

`verifyEmail` refreshes the session only when the verified account is the
logged-in one (services/api.ts:111-117). `updateProfile` overwrites the session
unconditionally (services/api.ts:137). `Accounts.UpdateProfile` follows the code
as written. The discrepancy is recorded under Findings.

## Model

| member | source | states |
|---|---|---|
| `Types.MessagesDistinct` | services/api.ts:20-178 | each of the seven thrown messages (`Invalid credentials` … `Resume not found`) belongs to exactly one error, so two errors share a message iff they are the same error |
| `Accounts.GetUsers` | services/api.ts:229-247 | the stored accounts when the key is present; otherwise exactly the default administrator |
| `Accounts.Seed` | services/api.ts:242-243 | the accounts read are persisted, later reads at any time return them, and the other four keys are unchanged |
| `Accounts.GetAllUsers` | services/api.ts:191-193 | never fails and persists the seed; on an empty store the one account is the verified administrator, whose password is the default |
| `Accounts.SeedOnce` | services/api.ts:229-247 | the administrator is seeded only when the key is absent, and later reads see the same accounts |
| `Accounts.OrDefaultPassword` | services/api.ts:17 | a missing or empty password falls back to `password123`; any other password is used as given |
| `Accounts.Login` | services/api.ts:12-24 | succeeds iff the first account with exactly this email has an effective password equal to the given one; on success the session is that account; on failure it throws `Invalid credentials` and only the seed is persisted |
| `Accounts.LoginUnique` | services/api.ts:12-24 | when emails are unique, login succeeds iff some account has that email and password |
| `Accounts.FreshStoreAdminLogin` | services/api.ts:229-247 | on a never-written store, `admin@resumanage.in` / `password123` logs in as the seeded administrator |
| `Accounts.Register` | services/api.ts:26-54 | fails iff some account already has the email; otherwise exactly one account is appended and the existing ones are unchanged; the new account has role `user`, is unverified, holds the token and the given or default password, and becomes the session |
| `Accounts.RegisterThenLogin` | services/api.ts:26-54 | a freshly registered account can log in with its password |
| `Accounts.RequestPasswordReset` | services/api.ts:56-73 | fails iff no account has the email; otherwise maps the token to the first such account's id with expiry now + 3600000 |
| `Accounts.ResetPassword` | services/api.ts:75-96 | `Invalid or expired reset token` iff the token is neither live nor an inherited property name, with storage unchanged. An inherited name fails with `User not found` and persists the seed. `User not found` also results iff a live token's owner is gone, with only the seed persisted. Succeeds iff the token is live and its owner exists: then only the owner's password changes, the token is removed, and `PASSWORD_RESET` is logged first, by and for the owner |
| `Accounts.ResetTokenSingleUse` | services/api.ts:91-93 | replaying a consumed reset token fails and changes nothing; the error is `Invalid or expired reset token` unless the token is an inherited property name |
| `Accounts.RequestThenReset` | services/api.ts:56-96 | a token issued by `requestPasswordReset` resets the password at any time up to and including its expiry one hour later |
| `Accounts.ResetThenLogin` | services/api.ts:83-89 | after a reset to a non-empty password, the account logs in with it, given unique emails |
| `Accounts.ResetAtExpiryAccepted` | services/api.ts:79 | a token whose owner exists is still accepted at exactly its expiry instant |
| `Accounts.VerifyEmail` | services/api.ts:98-120 | fails iff no account holds the token; otherwise the first holder becomes verified and loses the token, other accounts are unchanged, and the session is replaced only when its id is the holder's |
| `Accounts.VerifyTokenSingleUse` | services/api.ts:100-107 | a verification token held by one account is refused on a second use |
| `Accounts.GetCurrentUser` | services/api.ts:126-129 | the session snapshot, or nothing when no one is logged in |
| `Accounts.Logout` | services/api.ts:122-124 | clears the session and nothing else |
| `Accounts.LogoutIdempotent` | services/api.ts:122-129 | logging out twice equals logging out once, and afterwards there is no current user |
| `Accounts.MergeUser` | services/api.ts:135 | shallow merge, key by key: each of the eight keys the patch carries overwrites and each other key keeps its value; the password and verification token cannot be patched |
| `Accounts.MergeUserLaws` | services/api.ts:135 | merging the same patch twice equals merging it once; the empty patch changes nothing |
| `Accounts.UpdateProfile` | services/api.ts:131-139 | fails iff the id is unknown; otherwise only the first account with the id is merged, the others are unchanged, and the session becomes the updated account unconditionally |
| `Accounts.RoleToggleReplacesSession` | services/api.ts:137 | an administrator who changes another account's role finds that account as the session |
| `Accounts.UpdateProfileGuarded` | services/api.ts:131-139 | corrected update: same result and accounts, and resumes, log and reset tokens unchanged; the session is refreshed only when it is the updated account's |
| `Accounts.GuardedRoleToggleKeepsSession` | services/api.ts:137 | with the guard, updating another account leaves the session as it was |
| `Resumes.GetResumes` | services/api.ts:142-147 | returns exactly the stored resumes matching both filter keys, each as often as stored; an empty owner id filters nothing; with no filter it returns the whole list |
| `Resumes.GetResumesInStoredOrder` | services/api.ts:142-147 | the two filter passes equal one pass in stored order by the conjunction |
| `Resumes.GetResumeById` | services/api.ts:149-152 | returns the first resume with the id, and nothing iff no resume has it |
| `Resumes.NewResume` | services/api.ts:156-168 | owner and personal info come from the input. For every other key, a supplied value wins, including id, status and timestamps. Otherwise status defaults to `draft`, the lists to empty, the attachment to none, the id to the fresh id and both timestamps to now |
| `Resumes.NewResumeFullInput` | services/api.ts:156-168 | an input that supplies every key is stored exactly as given, including id, status and createdAt |
| `Resumes.CreateResume` | services/api.ts:154-173 | never fails; appends exactly the built resume and logs `CREATE_RESUME` first, performed by its owner and targeting its id; accounts, session and tokens are unchanged |
| `Resumes.CreateThenGet` | services/api.ts:149-173 | a resume created under an unused id is returned by `getResumeById` |
| `Resumes.MergeResume` | services/api.ts:179 | shallow merge, key by key: each of the eleven keys the patch carries overwrites and each other key keeps its value; the empty patch is the identity |
| `Resumes.UpdateResume` | services/api.ts:175-182 | fails iff no resume has the id, leaving storage unchanged; otherwise only the first match is replaced, by the merge stamped `updatedAt = now`, and the length is kept |
| `Resumes.StatusChangeOnly` | services/api.ts:175-182 | a status-only patch changes the status and `updatedAt` and nothing else |
| `Resumes.DeleteResume` | services/api.ts:184-188 | never fails; keeps exactly the resumes with another id, with their multiplicities; nothing else changes (order and the absent-id case: `DeleteUniqueKeepsOrder`, `DeleteAbsentUnchanged`, `DeleteConcat`) |
| `Resumes.DeleteUniqueKeepsOrder` | services/api.ts:184-188 | deleting a resume whose id no other resume shares removes just its position and keeps the others in order |
| `Resumes.DeleteAbsentUnchanged` | services/api.ts:184-188 | deleting an id that no resume carries leaves storage exactly as it was |
| `Resumes.DeleteConcat` | services/api.ts:184-188 | deletion keeps stored order even when the id repeats: deleting from two runs gives each run's survivors, the first run's ahead of the second's |
| `Resumes.DeleteIdempotent` | services/api.ts:184-188 | deleting twice equals deleting once, and afterwards lookup by the id finds nothing |
| `Resumes.CreateThenDelete` | services/api.ts:154-188 | deleting a resume just created under an unused id restores the previous list, order included |
| `Audit.Cap` | services/api.ts:260 | keeps a prefix of at most 100 entries: all of a short log, exactly 100 of a long one |
| `Audit.LogAction` | services/api.ts:249-261 | the new entry is at index 0, the log has at most 100 entries, and the tail is the previous log's first entries, at most 99 of them |
| `Audit.Log` | services/api.ts:249-261 | `logAction` on the store: only the log changes; the entry with the given fields is first, followed by at most 99 of the previous entries, and at most 100 are kept |
| `Audit.GetAuditLogs` | services/api.ts:224-226 | returns the stored log unchanged, newest first |
| `Audit.LogAllNewestFirst` | services/api.ts:259-260 | after any run of actions, the log is the newest 100 of all entries ever logged, newest first |
| `Audit.LogAllOverflow` | services/api.ts:259-260 | after at least 100 actions, exactly the 100 most recent remain, newest first |
| `Stats.Bump` | services/api.ts:200 | one tally step adds one to that skill's count and no other, appends new names only, and keeps names distinct |
| `Stats.TallyOf` | services/api.ts:199-200 | the tally has distinct names, lists exactly the seen skills, and records each skill's number of occurrences |
| `Stats.TallyCounts` | services/api.ts:199-200 | every tally entry's count is its skill's occurrence count, which is positive |
| `Stats.Insert` | services/api.ts:203 | insertion adds exactly one entry and keeps all others |
| `Stats.InsertSorted` | services/api.ts:203 | insertion into a non-increasing list keeps it non-increasing |
| `Stats.SortDesc` | services/api.ts:201-203 | the sort is a permutation, ordered by non-increasing count |
| `Stats.SortKeepsNamesDistinct` | services/api.ts:201-203 | sorting keeps skill names distinct |
| `Stats.SkillsDataTopFive` | services/api.ts:199-204 | at most 5 distinct skills, by non-increasing count, each with its true occurrence count; a skill left out means 5 are shown, each counted at least as often |
| `Stats.SubmittedToday` | services/api.ts:209 | the number of stored positions whose resume was created on today's date, hence at most the number of resumes |
| `Stats.TodayCount` | services/api.ts:209 | the filtered list has exactly one element per position created today |
| `Stats.GetDashboardStats` | services/api.ts:195-209 | never fails and persists the seed; the totals are the account and resume counts, `submittedToday` is the number of resumes created today, and the skill chart is `SkillsData` |
| `Wizard.InitialStateSound` | pages/SubmitResume.tsx:33-55 | the wizard opens on step 0 with no skills, no attachment and one blank education and experience entry, and no button sequence leaves the six steps |
| `Wizard.NextStep` | pages/SubmitResume.tsx:57 | moves one step forward, capped at the last of the six steps |
| `Wizard.PrevStep` | pages/SubmitResume.tsx:58 | moves one step back, floored at 0 |
| `Wizard.WalkStaysInRange` | pages/SubmitResume.tsx:23-30 | from any step in [0, 5], every sequence of Next/Back presses stays in [0, 5] |
| `Wizard.StepsUndo` | pages/SubmitResume.tsx:57-58 | Back undoes Next below the last step; Next undoes Back above the first |
| `Wizard.AddSkill` | pages/SubmitResume.tsx:132-138 | appends the pending skill and clears the input iff it is non-empty and not yet listed; otherwise nothing changes; the list stays duplicate-free |
| `Wizard.RemoveSkill` | pages/SubmitResume.tsx:140-142 | the result holds exactly the other skills, stays duplicate-free, and leaves the rest of the form unchanged |
| `Wizard.RemoveSkillKeepsOrder` | pages/SubmitResume.tsx:140-142 | on a form whose skills are duplicate-free, removing a listed skill deletes just its position and keeps the others in order |
| `Wizard.AddThenRemoveSkill` | pages/SubmitResume.tsx:132-142 | removing the skill just added restores the form |
| `Wizard.HandleFile` | pages/SubmitResume.tsx:60-78 | a PDF, DOC or DOCX file becomes the attachment; any other type leaves the form unchanged; an accepted attachment stays within the whitelist |
| `Wizard.ClearAttachment` | pages/SubmitResume.tsx:240 | "Remove and Change" drops the attachment and nothing else |
| `Wizard.AddEducation` | pages/SubmitResume.tsx:118-123 | appends exactly one blank entry; existing entries are untouched |
| `Wizard.AddExperience` | pages/SubmitResume.tsx:125-130 | appends exactly one blank entry, with one empty achievement; existing entries are untouched |
| `Wizard.RemoveEducation` | pages/SubmitResume.tsx:275 | keeps exactly the entries with another id, with their multiplicities |
| `Wizard.RemoveEducationKeepsOrder` | pages/SubmitResume.tsx:275 | removing an entry whose id no other entry shares deletes just its position and keeps the others in order |
| `Wizard.AddThenRemoveEducation` | pages/SubmitResume.tsx:118-123 | removing an entry just added under an unused id restores the form |
| `Wizard.HandleSubmit` | pages/SubmitResume.tsx:99-116 | with no current user nothing changes. Otherwise one resume with the form's fields is stored, owned by the session's user, with status `submitted`, which overrides the draft default. Accounts, session and reset tokens are unchanged. `CREATE_RESUME` is logged first, by that user and for the new resume, followed by at most 99 of the previous entries |

## Findings

| source | as written | input that shows it | evidently intended | confidence | as-written member | corrected member |
|---|---|---|---|---|---|---|
| services/api.ts:137 | `updateProfile` writes the updated account into the session whoever is logged in | an administrator is logged in and toggles another account's role (pages/AdminUserManagement.tsx:52); afterwards the stored session is the other account, so a reload shows that account as logged in | refresh the session only when the updated account is the logged-in one, as `verifyEmail` does at services/api.ts:111-117 | medium, not executed | `Accounts.RoleToggleReplacesSession` | `Accounts.UpdateProfileGuarded` |

## Left out

- localStorage and JSON (de)serialisation: storage is the abstract `Store` record, one field per key.
- `Math.random` ids and tokens, `Date.now()` and `new Date()`: they are parameters. Their freshness is a precondition of the lemmas that need it, because the source never checks it.
- Timestamps are epoch milliseconds (`nat`), not ISO strings. The `toDateString` same-day test is the parameter `isToday`.
- The console "emails" with verification and reset URLs, and the async/Promise plumbing: every operation is synchronous.
- `Stats.GetDashboardStats`: the fixed `avgExperienceYears: 4.2` and the constant `submissionsByDay` series are not modelled, because they are not derived from the store.
- `Stats.SkillsDataTopFive`: the order among skills with equal counts is not stated. The model sorts stably in first-seen order, which is what JavaScript does except that `Object.entries` lists integer-like keys first.
- `Accounts.RequestPasswordReset`: a token is stored as its own key. Random base-36 tokens cannot spell `__proto__`, so the case where assigning to that key would replace the map's prototype does not arise.
- `Stats.TallyOf`: treats `skillsMap` as a plain dictionary. Skill names that collide with `Object.prototype` members, such as `constructor` or `__proto__`, do not behave this way in JavaScript.
- `Resumes.CreateResume`: `userId` and `personalInfo` are required. The source asserts them non-null and every caller supplies them. A patch key present with the value `undefined` is modelled only for the attachment, which is the one key a caller sends that way.
- `Accounts.MergeUser`: a `Partial<User>` patch can only carry the declared `User` fields. Extra keys that JavaScript would also spread are not modelled.
- FileReader data-URL encoding: the encoded `data` is a parameter of `Wizard.HandleFile`. The in-place field edits of education and experience entries and the drag-and-drop event handling are also left out.
- The DOM-anchor download of the resume editor, the case-insensitive search filters of the admin and dashboard pages (they depend on Unicode `toLowerCase`), all rendering, charts, routing and role guards, and the remaining pages, which only call the operations above.

=== FILE: accounts.dfy ===
/** Accounts, session and the two token lifecycles of the store
    (the AUTH section and the `getUsers` seed of services/api.ts). */
module Accounts {
  import opened Wrappers
  import opened Types
  import Seqs
  import Audit

  /** The password of accounts stored without one, and of registrations that give none. */
  const DefaultPassword := "password123"

  const AdminEmail := "admin@resumanage.in"

  /** A reset token is good for one hour, in milliseconds. */
  const ResetTokenLifetime: nat := 3600000

  /** The administrator written on the first read of an empty store. */
  function DefaultAdmin(now: Timestamp): UserRec {
    UserRec("admin-1", AdminEmail, "Aditya", "Verma", None, Admin, true, now, Some(DefaultPassword), None)
  }

  /** `getUsers`: the stored accounts, or the seeded administrator when the key is absent. */
  function GetUsers(st: Store, now: Timestamp): (r: seq<UserRec>)
    ensures st.users.Some? ==> r == st.users.value
    ensures st.users.None? ==> r == [DefaultAdmin(now)]
  {
    match st.users
    case Some(users) => users
    case None => [DefaultAdmin(now)]
  }

  /** The store after `getUsers` has persisted what it read. */
  function Seed(st: Store, now: Timestamp): (r: Store)
    ensures r.users == Some(GetUsers(st, now))
    ensures forall later :: GetUsers(r, later) == GetUsers(st, now)
    ensures r.resumes == st.resumes && r.logs == st.logs
    ensures r.session == st.session && r.resetTokens == st.resetTokens
  {
    st.(users := Some(GetUsers(st, now)))
  }

  /** JavaScript's `password || 'password123'`: a missing or empty password falls back to the default. */
  function OrDefaultPassword(password: Option<string>): (r: string)
    ensures r != ""
    ensures password.Some? && password.value != "" ==> r == password.value
    ensures !(password.Some? && password.value != "") ==> r == DefaultPassword
  {
    if password.Some? && password.value != "" then password.value else DefaultPassword
  }

  /** The password `login` compares against. */
  function EffectivePassword(u: UserRec): string {
    OrDefaultPassword(u.password)
  }

  /** `users[i]` is the account `users.find(u => u.email === email)` returns. */
  ghost predicate FirstWithEmail(users: seq<UserRec>, i: int, email: string) {
    && 0 <= i < |users|
    && users[i].email == email
    && forall j :: 0 <= j < i ==> users[j].email != email
  }

  /** `users[i]` is the account `users.findIndex(u => u.id === id)` returns. */
  ghost predicate FirstWithId(users: seq<UserRec>, i: int, id: string) {
    && 0 <= i < |users|
    && users[i].id == id
    && forall j :: 0 <= j < i ==> users[j].id != id
  }

  /** `users[i]` is the first account holding the pending verification token. */
  ghost predicate FirstWithToken(users: seq<UserRec>, i: int, token: string) {
    && 0 <= i < |users|
    && users[i].verificationToken == Some(token)
    && forall j :: 0 <= j < i ==> users[j].verificationToken != Some(token)
  }

  /** No two accounts share an email. */
  ghost predicate EmailsUnique(users: seq<UserRec>) {
    forall i, j :: 0 <= i < j < |users| ==> users[i].email != users[j].email
  }

  /** At most one account holds the verification token. */
  ghost predicate TokenHeldOnce(users: seq<UserRec>, token: string) {
    forall i, j :: 0 <= i < j < |users| && users[i].verificationToken == Some(token)
                   ==> users[j].verificationToken != Some(token)
  }

  function IndexOfEmail(users: seq<UserRec>, email: string): (r: Option<nat>)
    ensures r.Some? ==> FirstWithEmail(users, r.value, email)
    ensures r.None? <==> forall i :: 0 <= i < |users| ==> users[i].email != email
  {
    Seqs.FirstIndex(users, (u: UserRec) => u.email == email)
  }

  function IndexOfId(users: seq<UserRec>, id: string): (r: Option<nat>)
    ensures r.Some? ==> FirstWithId(users, r.value, id)
    ensures r.None? <==> forall i :: 0 <= i < |users| ==> users[i].id != id
  {
    Seqs.FirstIndex(users, (u: UserRec) => u.id == id)
  }

  function IndexOfToken(users: seq<UserRec>, token: string): (r: Option<nat>)
    ensures r.Some? ==> FirstWithToken(users, r.value, token)
    ensures r.None? <==> forall i :: 0 <= i < |users| ==> users[i].verificationToken != Some(token)
  {
    Seqs.FirstIndex(users, (u: UserRec) => u.verificationToken == Some(token))
  }

  /** Reading the accounts seeds the administrator once; later reads see the same accounts. */
  lemma SeedOnce(st: Store, now: Timestamp, later: Timestamp)
    ensures Seed(Seed(st, now), later) == Seed(st, now)
    ensures GetUsers(Seed(st, now), later) == GetUsers(st, now)
    ensures st.users.None? ==> GetUsers(st, now) == [DefaultAdmin(now)]
    ensures st.users.Some? ==> Seed(st, now) == st
  {
  }

  /** `getAllUsers`: every stored account, passwords and tokens included; never fails,
      and persists the seed on an empty store. */
  function GetAllUsers(st: Store, now: Timestamp): (out: Response<seq<UserRec>>)
    ensures out.store == Seed(st, now) && out.result.Ok?
    ensures out.store.users == Some(out.result.value)
    ensures st.users.None? ==>
      && |out.result.value| == 1
      && out.result.value[0].role == Admin && out.result.value[0].isVerified
      && out.result.value[0].email == AdminEmail
      && EffectivePassword(out.result.value[0]) == DefaultPassword
  {
    Response(Seed(st, now), Ok(GetUsers(st, now)))
  }

  // ---------------------------------------------------------------- login

  /** `login`: the first account with exactly this email, if the password
      matches its stored password (or the default when none is stored). */
  function Login(st: Store, email: string, password: string, now: Timestamp): (out: Response<UserRec>)
    ensures var users := GetUsers(st, now);
      out.result.Ok? <==>
        exists i :: FirstWithEmail(users, i, email) && EffectivePassword(users[i]) == password
    ensures var users := GetUsers(st, now);
      out.result.Ok? ==>
        && (exists i :: FirstWithEmail(users, i, email) && users[i] == out.result.value)
        && out.store == Seed(st, now).(session := Some(out.result.value))
    ensures out.result.Err? ==> out.result.error == InvalidCredentials && out.store == Seed(st, now)
  {
    var users := GetUsers(st, now);
    match IndexOfEmail(users, email)
    case None => Response(Seed(st, now), Err(InvalidCredentials))
    case Some(i) =>
      if password != EffectivePassword(users[i]) then Response(Seed(st, now), Err(InvalidCredentials))
      else Response(Seed(st, now).(session := Some(users[i])), Ok(users[i]))
  }

  /** With unique emails, login succeeds exactly for a stored email and its password. */
  lemma LoginUnique(st: Store, email: string, password: string, now: Timestamp)
    requires EmailsUnique(GetUsers(st, now))
    ensures var users := GetUsers(st, now);
      Login(st, email, password, now).result.Ok? <==>
        exists u :: u in users && u.email == email && EffectivePassword(u) == password
  {
    var users := GetUsers(st, now);
    if exists u :: u in users && u.email == email && EffectivePassword(u) == password {
      var u :| u in users && u.email == email && EffectivePassword(u) == password;
      var k :| 0 <= k < |users| && users[k] == u;
      var i := IndexOfEmail(users, email).value;
      assert i == k;
    }
  }

  /** On a store never written to, the seeded administrator can log in with the default password. */
  lemma FreshStoreAdminLogin(now: Timestamp)
    ensures Login(EmptyStore, AdminEmail, DefaultPassword, now).result == Ok(DefaultAdmin(now))
    ensures Login(EmptyStore, AdminEmail, DefaultPassword, now).store.session == Some(DefaultAdmin(now))
  {
    assert FirstWithEmail([DefaultAdmin(now)], 0, AdminEmail);
  }

  // ---------------------------------------------------------------- register

  /** The fields the registration form sends. */
  datatype Registration = Registration(email: string, firstName: string, lastName: string, password: Option<string>)

  /** `register`: refuses an email some account already has; otherwise appends one
      unverified `user` with a pending verification token and logs it in. */
  function Register(st: Store, form: Registration, newId: string, token: string, now: Timestamp): (out: Response<UserRec>)
    ensures var users := GetUsers(st, now);
      out.result.Err? <==> exists i :: 0 <= i < |users| && users[i].email == form.email
    ensures out.result.Err? ==> out.result.error == EmailAlreadyRegistered && out.store == Seed(st, now)
    ensures out.result.Ok? ==>
      var u := out.result.value;
      && out.store == st.(users := Some(GetUsers(st, now) + [u]), session := Some(u))
      && u.id == newId && u.email == form.email
      && u.firstName == form.firstName && u.lastName == form.lastName && u.phone.None?
      && u.role == User && !u.isVerified && u.verificationToken == Some(token)
      && u.password == Some(OrDefaultPassword(form.password))
      && u.createdAt == now
  {
    var users := GetUsers(st, now);
    if IndexOfEmail(users, form.email).Some? then
      Response(Seed(st, now), Err(EmailAlreadyRegistered))
    else
      var u := UserRec(newId, form.email, form.firstName, form.lastName, None, User, false, now,
                       Some(OrDefaultPassword(form.password)), Some(token));
      Response(st.(users := Some(users + [u]), session := Some(u)), Ok(u))
  }

  /** A freshly registered account logs in with the password it registered with. */
  lemma RegisterThenLogin(st: Store, form: Registration, newId: string, token: string, now: Timestamp, later: Timestamp)
    requires Register(st, form, newId, token, now).result.Ok?
    ensures var out := Register(st, form, newId, token, now);
      Login(out.store, form.email, OrDefaultPassword(form.password), later).result == Ok(out.result.value)
  {
    var out := Register(st, form, newId, token, now);
    var users := GetUsers(st, now);
    var users' := GetUsers(out.store, later);
    assert users' == users + [out.result.value];
    assert FirstWithEmail(users', |users|, form.email);
  }

  // ---------------------------------------------------------------- password reset

  /** `requestPasswordReset`: refuses an unknown email; otherwise maps the new token
      to the first such account and an expiry one hour from now. */
  function RequestPasswordReset(st: Store, email: string, token: string, now: Timestamp): (out: Response<()>)
    ensures var users := GetUsers(st, now);
      out.result.Err? <==> forall i :: 0 <= i < |users| ==> users[i].email != email
    ensures out.result.Err? ==> out.result.error == NoAccountForEmail && out.store == Seed(st, now)
    ensures var users := GetUsers(st, now);
      out.result.Ok? ==>
        exists i :: FirstWithEmail(users, i, email)
          && out.store == Seed(st, now).(resetTokens := st.resetTokens[token := ResetEntry(users[i].id, now + ResetTokenLifetime)])
  {
    var users := GetUsers(st, now);
    match IndexOfEmail(users, email)
    case None => Response(Seed(st, now), Err(NoAccountForEmail))
    case Some(i) =>
      var entry := ResetEntry(users[i].id, now + ResetTokenLifetime);
      Response(Seed(st, now).(resetTokens := st.resetTokens[token := entry]), Ok(()))
  }

  /** A reset token is honoured while its expiry has not passed; the expiry instant itself still counts. */
  predicate ResetTokenValid(st: Store, token: string, now: Timestamp) {
    token in st.resetTokens && !(st.resetTokens[token].expiry < now)
  }

  /** The names every plain JavaScript object inherits from `Object.prototype`. */
  const InheritedKeys: set<string> := {
    "constructor", "__proto__", "__defineGetter__", "__defineSetter__", "__lookupGetter__",
    "__lookupSetter__", "hasOwnProperty", "isPrototypeOf", "propertyIsEnumerable",
    "toLocaleString", "toString", "valueOf"}

  /** A token that is no stored key but an inherited one: `tokens[token]` is then a truthy
      value whose `expiry` and `userId` are `undefined`, and `undefined < Date.now()` is false. */
  predicate InheritedToken(st: Store, token: string) {
    token !in st.resetTokens && token in InheritedKeys
  }

  /** The reset token's owner has an account. */
  predicate OwnerExists(st: Store, token: string, now: Timestamp)
    requires token in st.resetTokens
  {
    exists i :: 0 <= i < |GetUsers(st, now)| && GetUsers(st, now)[i].id == st.resetTokens[token].userId
  }

  /** `resetPassword`: on a live token, overwrites the owner's password, consumes
      the token and logs `PASSWORD_RESET`; nothing else changes. An inherited key
      passes the token check and then finds no owner. */
  function ResetPassword(st: Store, token: string, newPassword: string, logId: string, now: Timestamp): (out: Response<()>)
    ensures out.result == Err(InvalidResetToken) <==> !ResetTokenValid(st, token, now) && !InheritedToken(st, token)
    ensures out.result == Err(InvalidResetToken) ==> out.store == st
    ensures InheritedToken(st, token) ==> out == Response(Seed(st, now), Err(UserNotFound))
    ensures out.result == Err(UserNotFound) <==>
      InheritedToken(st, token) || (ResetTokenValid(st, token, now) && !OwnerExists(st, token, now))
    ensures out.result == Err(UserNotFound) ==> out.store == Seed(st, now)
    ensures out.result.Ok? <==> ResetTokenValid(st, token, now) && OwnerExists(st, token, now)
    ensures out.result.Ok? ==>
      var owner := st.resetTokens[token].userId;
      var users := GetUsers(st, now);
      && out.store.resetTokens == st.resetTokens - {token}
      && out.store.session == st.session && out.store.resumes == st.resumes
      && (exists i :: FirstWithId(users, i, owner)
            && out.store.users == Some(users[i := users[i].(password := Some(newPassword))]))
      && 0 < |out.store.logs| <= Audit.LogCap
      && out.store.logs[0] == AuditLog(logId, "PASSWORD_RESET", owner, owner, "User reset their password", now)
      && out.store.logs[1..] == st.logs[..Seqs.Min(|st.logs|, Audit.LogCap - 1)]
  {
    if ResetTokenValid(st, token, now) then
      var entry := st.resetTokens[token];
      var users := GetUsers(st, now);
      match IndexOfId(users, entry.userId)
      case None => Response(Seed(st, now), Err(UserNotFound))
      case Some(i) =>
        var users' := users[i := users[i].(password := Some(newPassword))];
        var st' := st.(users := Some(users'), resetTokens := st.resetTokens - {token});
        Response(Audit.Log(st', "PASSWORD_RESET", entry.userId, entry.userId, "User reset their password", logId, now), Ok(()))
    else if InheritedToken(st, token) then
      Response(Seed(st, now), Err(UserNotFound))
    else
      Response(st, Err(InvalidResetToken))
  }

  /** A reset token works once: a replay is refused and changes nothing, with
      `InvalidResetToken` unless the token is an inherited key name. */
  lemma ResetTokenSingleUse(st: Store, token: string, pw: string, logId: string, now: Timestamp,
                            pw2: string, logId2: string, later: Timestamp)
    requires ResetPassword(st, token, pw, logId, now).result.Ok?
    ensures var out := ResetPassword(st, token, pw, logId, now);
      var replay := ResetPassword(out.store, token, pw2, logId2, later);
      && replay.result.Err? && replay.store == out.store
      && (token !in InheritedKeys ==> replay.result == Err(InvalidResetToken))
  {
  }

  /** A requested token resets the password of the account it was issued for, at any
      time up to and including its expiry. */
  lemma RequestThenReset(st: Store, email: string, token: string, now: Timestamp,
                         pw: string, logId: string, later: Timestamp)
    requires RequestPasswordReset(st, email, token, now).result.Ok?
    requires later <= now + ResetTokenLifetime
    ensures ResetPassword(RequestPasswordReset(st, email, token, now).store, token, pw, logId, later).result.Ok?
  {
    var out := RequestPasswordReset(st, email, token, now);
    var users := GetUsers(st, now);
    var i := IndexOfEmail(users, email).value;
    assert GetUsers(out.store, later) == users;
    assert out.store.resetTokens[token].userId == users[i].id;
  }

  /** After a reset the account logs in with the new password (emails unique, password non-empty). */
  lemma ResetThenLogin(st: Store, token: string, pw: string, logId: string, now: Timestamp, later: Timestamp)
    requires ResetPassword(st, token, pw, logId, now).result.Ok?
    requires EmailsUnique(GetUsers(st, now))
    requires pw != ""
    ensures var out := ResetPassword(st, token, pw, logId, now);
      var i := IndexOfId(GetUsers(st, now), st.resetTokens[token].userId).value;
      Login(out.store, GetUsers(st, now)[i].email, pw, later).result.Ok?
  {
    var out := ResetPassword(st, token, pw, logId, now);
    var users := GetUsers(st, now);
    var i := IndexOfId(users, st.resetTokens[token].userId).value;
    var users' := GetUsers(out.store, later);
    assert users' == users[i := users[i].(password := Some(pw))];
    assert FirstWithEmail(users', i, users[i].email) by {
      forall j | 0 <= j < i
        ensures users'[j].email != users[i].email
      {
        assert users'[j] == users[j];
      }
    }
  }

  /** A token expiring at the very millisecond of the request is still accepted. */
  lemma ResetAtExpiryAccepted(st: Store, token: string, pw: string, logId: string)
    requires token in st.resetTokens
    requires OwnerExists(st, token, st.resetTokens[token].expiry)
    ensures ResetPassword(st, token, pw, logId, st.resetTokens[token].expiry).result.Ok?
  {
  }

  // ---------------------------------------------------------------- email verification

  /** `verifyEmail`: the first account holding the token becomes verified and loses
      the token; the session is refreshed only when it is that account's. */
  function VerifyEmail(st: Store, token: string, now: Timestamp): (out: Response<bool>)
    ensures var users := GetUsers(st, now);
      out.result.Err? <==> forall i :: 0 <= i < |users| ==> users[i].verificationToken != Some(token)
    ensures out.result.Err? ==> out.result.error == InvalidVerificationToken && out.store == Seed(st, now)
    ensures var users := GetUsers(st, now);
      out.result.Ok? ==>
        && out.result.value
        && out.store.resumes == st.resumes && out.store.logs == st.logs
        && out.store.resetTokens == st.resetTokens
        && (exists i :: FirstWithToken(users, i, token)
              && var v := users[i].(isVerified := true, verificationToken := None);
              && out.store.users == Some(users[i := v])
              && (st.session.Some? && st.session.value.id == v.id ==> out.store.session == Some(v))
              && (!(st.session.Some? && st.session.value.id == v.id) ==> out.store.session == st.session))
  {
    var users := GetUsers(st, now);
    match IndexOfToken(users, token)
    case None => Response(Seed(st, now), Err(InvalidVerificationToken))
    case Some(i) =>
      var v := users[i].(isVerified := true, verificationToken := None);
      var session := if st.session.Some? && st.session.value.id == v.id then Some(v) else st.session;
      Response(st.(users := Some(users[i := v]), session := session), Ok(true))
  }

  /** A verification token held by one account works once: the replay is refused. */
  lemma VerifyTokenSingleUse(st: Store, token: string, now: Timestamp, later: Timestamp)
    requires VerifyEmail(st, token, now).result.Ok?
    requires TokenHeldOnce(GetUsers(st, now), token)
    ensures var out := VerifyEmail(st, token, now);
      VerifyEmail(out.store, token, later).result == Err(InvalidVerificationToken)
  {
    var out := VerifyEmail(st, token, now);
    var users := GetUsers(st, now);
    var i := IndexOfToken(users, token).value;
    var users' := GetUsers(out.store, later);
    forall j | 0 <= j < |users'|
      ensures users'[j].verificationToken != Some(token)
    {
      if j < i {
        assert users'[j] == users[j];
      } else if j > i {
        assert users'[j] == users[j];
        assert users[i].verificationToken == Some(token);
      }
    }
  }

  // ---------------------------------------------------------------- session

  /** `logout`: drops the session and nothing else. */
  function Logout(st: Store): (st': Store)
    ensures st'.session.None?
    ensures st'.users == st.users && st'.resumes == st.resumes
    ensures st'.logs == st.logs && st'.resetTokens == st.resetTokens
  {
    st.(session := None)
  }

  /** Logging out twice is logging out once. */
  lemma LogoutIdempotent(st: Store)
    ensures Logout(Logout(st)) == Logout(st)
    ensures GetCurrentUser(Logout(st)).None?
  {
  }

  /** `getCurrentUser`: the session snapshot, if any. */
  function GetCurrentUser(st: Store): (r: Option<UserRec>)
    ensures r == st.session
  {
    st.session
  }

  // ---------------------------------------------------------------- profile

  /** `{ ...user, ...patch }`: every key the patch carries overwrites, every other is kept.
      The undeclared password and verification token cannot be patched. */
  function MergeUser(u: UserRec, p: UserPatch): (r: UserRec)
    ensures r.password == u.password && r.verificationToken == u.verificationToken
    ensures r.id == (if p.id.Some? then p.id.value else u.id)
    ensures r.email == (if p.email.Some? then p.email.value else u.email)
    ensures r.firstName == (if p.firstName.Some? then p.firstName.value else u.firstName)
    ensures r.lastName == (if p.lastName.Some? then p.lastName.value else u.lastName)
    ensures r.phone == (if p.phone.Some? then p.phone else u.phone)
    ensures r.role == (if p.role.Some? then p.role.value else u.role)
    ensures r.isVerified == (if p.isVerified.Some? then p.isVerified.value else u.isVerified)
    ensures r.createdAt == (if p.createdAt.Some? then p.createdAt.value else u.createdAt)
  {
    UserRec(
      p.id.GetOr(u.id),
      p.email.GetOr(u.email),
      p.firstName.GetOr(u.firstName),
      p.lastName.GetOr(u.lastName),
      if p.phone.Some? then p.phone else u.phone,
      p.role.GetOr(u.role),
      p.isVerified.GetOr(u.isVerified),
      p.createdAt.GetOr(u.createdAt),
      u.password,
      u.verificationToken)
  }

  const EmptyUserPatch := UserPatch(None, None, None, None, None, None, None, None)

  /** Merging is idempotent and the empty patch changes nothing. */
  lemma MergeUserLaws(u: UserRec, p: UserPatch)
    ensures MergeUser(MergeUser(u, p), p) == MergeUser(u, p)
    ensures MergeUser(u, EmptyUserPatch) == u
  {
  }

  /** `updateProfile` as written: merges the patch into the first account with the id,
      and makes the updated account the session whoever was logged in. */
  function UpdateProfile(st: Store, userId: string, patch: UserPatch, now: Timestamp): (out: Response<UserRec>)
    ensures var users := GetUsers(st, now);
      out.result.Err? <==> forall i :: 0 <= i < |users| ==> users[i].id != userId
    ensures out.result.Err? ==> out.result.error == UserNotFound && out.store == Seed(st, now)
    ensures var users := GetUsers(st, now);
      out.result.Ok? ==>
        && out.store.session == Some(out.result.value)
        && out.store.resumes == st.resumes && out.store.logs == st.logs
        && out.store.resetTokens == st.resetTokens
        && (exists i :: FirstWithId(users, i, userId)
              && out.result.value == MergeUser(users[i], patch)
              && out.store.users == Some(users[i := out.result.value]))
  {
    var users := GetUsers(st, now);
    match IndexOfId(users, userId)
    case None => Response(Seed(st, now), Err(UserNotFound))
    case Some(i) =>
      var u := MergeUser(users[i], patch);
      Response(st.(users := Some(users[i := u]), session := Some(u)), Ok(u))
  }

  /** An administrator toggling another account's role is left with that account as the session. */
  lemma RoleToggleReplacesSession(st: Store, admin: UserRec, target: UserRec, role: UserRole, now: Timestamp)
    requires st.users == Some([admin, target])
    requires st.session == Some(admin)
    requires admin.id != target.id
    ensures var out := UpdateProfile(st, target.id, EmptyUserPatch.(role := Some(role)), now);
      && out.result.Ok?
      && out.store.session.Some?
      && out.store.session.value.id == target.id
      && out.store.session != st.session
  {
    assert FirstWithId([admin, target], 1, target.id);
  }

  /** `updateProfile` as it is meant to behave: the session is refreshed only when it is the
      updated account's; everything else as `UpdateProfile`. */
  function UpdateProfileGuarded(st: Store, userId: string, patch: UserPatch, now: Timestamp): (out: Response<UserRec>)
    ensures out.result == UpdateProfile(st, userId, patch, now).result
    ensures out.result.Ok? ==>
      && out.store.users == UpdateProfile(st, userId, patch, now).store.users
      && (st.session.Some? && st.session.value.id == userId ==> out.store.session == Some(out.result.value))
      && (!(st.session.Some? && st.session.value.id == userId) ==> out.store.session == st.session)
      && out.store.resumes == st.resumes && out.store.logs == st.logs
      && out.store.resetTokens == st.resetTokens
    ensures out.result.Err? ==> out.store == Seed(st, now)
  {
    var out := UpdateProfile(st, userId, patch, now);
    if out.result.Ok? && !(st.session.Some? && st.session.value.id == userId) then
      out.(store := out.store.(session := st.session))
    else out
  }

  /** With the guard, a role toggle by an administrator leaves the administrator logged in. */
  lemma GuardedRoleToggleKeepsSession(st: Store, userId: string, patch: UserPatch, now: Timestamp)
    requires st.session.Some? && st.session.value.id != userId
    ensures UpdateProfileGuarded(st, userId, patch, now).store.session == st.session
  {
  }
}

=== FILE: audit.dfy ===
/** The audit log: newest entry first, trimmed to the most recent hundred
    (`logAction`, services/api.ts). */
module Audit {
  import opened Types
  import Seqs

  /** The number of entries `logAction` keeps. */
  const LogCap: nat := 100

  /** `logs.slice(0, 100)`: the newest `LogCap` entries of a newest-first log. */
  function Cap(logs: seq<AuditLog>): (r: seq<AuditLog>)
    ensures |r| <= LogCap && |r| <= |logs|
    ensures r == logs[..|r|]
    ensures |logs| <= LogCap ==> r == logs
    ensures |logs| >= LogCap ==> |r| == LogCap
  {
    logs[..Seqs.Min(|logs|, LogCap)]
  }

  /** `logAction`'s effect on the log: `unshift` the entry, then trim. */
  function LogAction(logs: seq<AuditLog>, entry: AuditLog): (r: seq<AuditLog>)
    ensures 0 < |r| <= LogCap
    ensures r[0] == entry
    ensures r[1..] == logs[..Seqs.Min(|logs|, LogCap - 1)]
  {
    Cap([entry] + logs)
  }

  /** `logAction` applied to the whole store; the entry id and clock are parameters. */
  function Log(st: Store, action: string, performedBy: string, targetId: string,
               details: string, logId: string, now: Timestamp): (r: Store)
    ensures r == st.(logs := r.logs)
    ensures 0 < |r.logs| <= LogCap
    ensures r.logs[0] == AuditLog(logId, action, performedBy, targetId, details, now)
    ensures r.logs[1..] == st.logs[..Seqs.Min(|st.logs|, LogCap - 1)]
  {
    st.(logs := LogAction(st.logs, AuditLog(logId, action, performedBy, targetId, details, now)))
  }

  /** `getAuditLogs`: the log as stored, newest first. */
  function GetAuditLogs(st: Store): (r: seq<AuditLog>)
    ensures r == st.logs
  {
    st.logs
  }

  /** The log after a run of actions, logged in the order of `entries`. */
  function LogAll(logs: seq<AuditLog>, entries: seq<AuditLog>): seq<AuditLog>
    decreases |entries|
  {
    if |entries| == 0 then logs else LogAll(LogAction(logs, entries[0]), entries[1..])
  }

  function Reverse<T>(s: seq<T>): (r: seq<T>)
    ensures |r| == |s|
    decreases |s|
  {
    if |s| == 0 then [] else Reverse(s[1..]) + [s[0]]
  }

  /** Trimming an inner suffix first does not change the outer trim. */
  lemma CapAbsorb(front: seq<AuditLog>, back: seq<AuditLog>)
    ensures Cap(front + Cap(back)) == Cap(front + back)
  {
    if |back| > LogCap {
      var lhs := Cap(front + Cap(back));
      var rhs := Cap(front + back);
      assert |lhs| == |rhs|;
      forall i | 0 <= i < |lhs|
        ensures lhs[i] == rhs[i]
      {
        if i >= |front| {
          assert lhs[i] == Cap(back)[i - |front|];
        }
      }
    }
  }

  /** However many actions are logged, the log holds the newest `LogCap` of all
      entries ever logged, newest first. */
  lemma {:induction false} LogAllNewestFirst(logs: seq<AuditLog>, entries: seq<AuditLog>)
    requires |logs| <= LogCap
    ensures LogAll(logs, entries) == Cap(Reverse(entries) + logs)
    decreases |entries|
  {
    if |entries| == 0 {
      assert Reverse(entries) + logs == logs;
    } else {
      var e, rest := entries[0], entries[1..];
      var next := LogAction(logs, e);
      assert LogAll(logs, entries) == LogAll(next, rest);
      assert next == Cap([e] + logs);
      LogAllNewestFirst(next, rest);
      CapAbsorb(Reverse(rest), [e] + logs);
      assert Reverse(entries) == Reverse(rest) + [e];
      assert Reverse(rest) + ([e] + logs) == Reverse(entries) + logs;
    }
  }

  /** After at least `LogCap` actions only the newest `LogCap` remain, newest first. */
  lemma LogAllOverflow(logs: seq<AuditLog>, entries: seq<AuditLog>)
    requires |logs| <= LogCap
    requires |entries| >= LogCap
    ensures LogAll(logs, entries) == Reverse(entries)[..LogCap]
  {
    LogAllNewestFirst(logs, entries);
    var all := Reverse(entries) + logs;
    assert Cap(all) == all[..LogCap];
    assert all[..LogCap] == Reverse(entries)[..LogCap];
  }
}

=== FILE: resumes.dfy ===
/** Resume CRUD of the store (the RESUMES section of services/api.ts). None of
    these operations reads the accounts, so none of them seeds the administrator. */
module Resumes {
  import opened Wrappers
  import opened Types
  import Seqs
  import Audit

  /** The optional filters of `getResumes`. */
  datatype ResumeFilter = ResumeFilter(userId: Option<string>, status: Option<ResumeStatus>)

  const NoFilter := ResumeFilter(None, None)

  /** A filter key takes effect only when it is truthy, so an empty owner id filters nothing;
      both keys together mean both must hold. */
  predicate Matches(f: ResumeFilter, r: Resume) {
    && (f.userId.None? || f.userId.value == "" || r.userId == f.userId.value)
    && (f.status.None? || r.status == f.status.value)
  }

  /** `resumes[i]` is the resume `findIndex(r => r.id === id)` returns. */
  ghost predicate FirstWithId(resumes: seq<Resume>, i: int, id: string) {
    && 0 <= i < |resumes|
    && resumes[i].id == id
    && forall j :: 0 <= j < i ==> resumes[j].id != id
  }

  function IndexOfId(resumes: seq<Resume>, id: string): (r: Option<nat>)
    ensures r.Some? ==> FirstWithId(resumes, r.value, id)
    ensures r.None? <==> forall i :: 0 <= i < |resumes| ==> resumes[i].id != id
  {
    Seqs.FirstIndex(resumes, (x: Resume) => x.id == id)
  }

  function OwnedBy(userId: string): Resume -> bool {
    (x: Resume) => x.userId == userId
  }

  function InStatus(status: ResumeStatus): Resume -> bool {
    (x: Resume) => x.status == status
  }

  /** `getResumes`: the stored resumes passing the filter, each as often as stored. */
  function GetResumes(st: Store, f: ResumeFilter): (r: seq<Resume>)
    ensures forall x :: x in r <==> x in st.resumes && Matches(f, x)
    ensures forall x :: multiset(r)[x] == if Matches(f, x) then multiset(st.resumes)[x] else 0
    ensures f == NoFilter ==> r == st.resumes
  {
    var byOwner :=
      if f.userId.Some? && f.userId.value != "" then
        Seqs.FilterMultiset(st.resumes, OwnedBy(f.userId.value));
        Seqs.Filter(st.resumes, OwnedBy(f.userId.value))
      else st.resumes;
    if f.status.Some? then
      Seqs.FilterMultiset(byOwner, InStatus(f.status.value));
      Seqs.Filter(byOwner, InStatus(f.status.value))
    else byOwner
  }

  /** The two filter passes are one pass over the stored order by `Matches`. */
  lemma GetResumesInStoredOrder(st: Store, f: ResumeFilter)
    ensures GetResumes(st, f) == Seqs.Filter(st.resumes, (x: Resume) => Matches(f, x))
  {
    var m := (x: Resume) => Matches(f, x);
    var owner := f.userId.Some? && f.userId.value != "";
    if owner && f.status.Some? {
      Seqs.FilterFilter(st.resumes, OwnedBy(f.userId.value), InStatus(f.status.value));
      FilterSameTest(st.resumes, Seqs.Both(OwnedBy(f.userId.value), InStatus(f.status.value)), m);
    } else if owner {
      FilterSameTest(st.resumes, OwnedBy(f.userId.value), m);
    } else if f.status.Some? {
      FilterSameTest(st.resumes, InStatus(f.status.value), m);
    } else {
      Seqs.FilterKeepsAll(st.resumes, m);
    }
  }

  /** Filters by tests that agree on every element are equal. */
  lemma {:induction false} FilterSameTest(s: seq<Resume>, p: Resume -> bool, q: Resume -> bool)
    requires forall x :: p(x) == q(x)
    ensures Seqs.Filter(s, p) == Seqs.Filter(s, q)
    decreases |s|
  {
    if |s| > 0 {
      FilterSameTest(s[1..], p, q);
    }
  }

  /** `getResumeById`: the first stored resume with the id, if any. */
  function GetResumeById(st: Store, id: string): (r: Option<Resume>)
    ensures r.None? <==> forall i :: 0 <= i < |st.resumes| ==> st.resumes[i].id != id
    ensures r.Some? ==> exists i :: FirstWithId(st.resumes, i, id) && st.resumes[i] == r.value
  {
    match IndexOfId(st.resumes, id)
    case None => None
    case Some(i) => Some(st.resumes[i])
  }

  /** The record `createResume` builds: the defaults, then every key of the input
      spread over them, so a supplied key always wins. */
  function NewResume(input: ResumePatch, newId: string, now: Timestamp): (r: Resume)
    requires input.userId.Some? && input.personalInfo.Some?
    ensures r.userId == input.userId.value && r.personalInfo == input.personalInfo.value
    ensures r.id == (if input.id.Some? then input.id.value else newId)
    ensures r.status == (if input.status.Some? then input.status.value else Draft)
    ensures r.education == (if input.education.Some? then input.education.value else [])
    ensures r.experience == (if input.experience.Some? then input.experience.value else [])
    ensures r.skills == (if input.skills.Some? then input.skills.value else [])
    ensures r.certifications == (if input.certifications.Some? then input.certifications.value else [])
    ensures r.attachment == (if input.attachment.Some? then input.attachment.value else None)
    ensures r.createdAt == (if input.createdAt.Some? then input.createdAt.value else now)
    ensures r.updatedAt == (if input.updatedAt.Some? then input.updatedAt.value else now)
  {
    Resume(
      input.id.GetOr(newId),
      input.userId.value,
      input.personalInfo.value,
      input.education.GetOr([]),
      input.experience.GetOr([]),
      input.skills.GetOr([]),
      input.certifications.GetOr([]),
      input.attachment.GetOr(None),
      input.status.GetOr(Draft),
      input.createdAt.GetOr(now),
      input.updatedAt.GetOr(now))
  }

  /** The patch carrying every key of `r`. */
  function PatchOf(r: Resume): ResumePatch {
    ResumePatch(Some(r.id), Some(r.userId), Some(r.personalInfo), Some(r.education), Some(r.experience),
                Some(r.skills), Some(r.certifications), Some(r.attachment), Some(r.status),
                Some(r.createdAt), Some(r.updatedAt))
  }

  /** An input that carries every key leaves no default standing. */
  lemma NewResumeFullInput(r: Resume, newId: string, now: Timestamp)
    ensures NewResume(PatchOf(r), newId, now) == r
  {
  }

  /** `createResume`: appends the built record and logs `CREATE_RESUME` for its owner. */
  function CreateResume(st: Store, input: ResumePatch, newId: string, logId: string, now: Timestamp): (out: Response<Resume>)
    requires input.userId.Some? && input.personalInfo.Some?
    ensures out.result.Ok?
    ensures var r := out.result.value;
      && r == NewResume(input, newId, now)
      && out.store.resumes == st.resumes + [r]
      && out.store.users == st.users && out.store.session == st.session
      && out.store.resetTokens == st.resetTokens
      && 0 < |out.store.logs| <= Audit.LogCap
      && out.store.logs[0] == AuditLog(logId, "CREATE_RESUME", input.userId.value, r.id, "Created new resume draft", now)
      && out.store.logs[1..] == st.logs[..Seqs.Min(|st.logs|, Audit.LogCap - 1)]
  {
    var r := NewResume(input, newId, now);
    var st' := st.(resumes := st.resumes + [r]);
    Response(Audit.Log(st', "CREATE_RESUME", r.userId, r.id, "Created new resume draft", logId, now), Ok(r))
  }

  /** Round trip: a resume created under an id no stored resume has is found again by that id. */
  lemma CreateThenGet(st: Store, input: ResumePatch, newId: string, logId: string, now: Timestamp)
    requires input.userId.Some? && input.personalInfo.Some?
    requires forall i :: 0 <= i < |st.resumes| ==> st.resumes[i].id != input.id.GetOr(newId)
    ensures var out := CreateResume(st, input, newId, logId, now);
      GetResumeById(out.store, out.result.value.id) == Some(out.result.value)
  {
    var out := CreateResume(st, input, newId, logId, now);
    assert FirstWithId(out.store.resumes, |st.resumes|, out.result.value.id);
  }

  /** `{ ...resume, ...patch }`: every key the patch carries overwrites, every other is kept. */
  function MergeResume(r: Resume, p: ResumePatch): (m: Resume)
    ensures p == EmptyResumePatch ==> m == r
    ensures m.id == (if p.id.Some? then p.id.value else r.id)
    ensures m.userId == (if p.userId.Some? then p.userId.value else r.userId)
    ensures m.personalInfo == (if p.personalInfo.Some? then p.personalInfo.value else r.personalInfo)
    ensures m.education == (if p.education.Some? then p.education.value else r.education)
    ensures m.experience == (if p.experience.Some? then p.experience.value else r.experience)
    ensures m.skills == (if p.skills.Some? then p.skills.value else r.skills)
    ensures m.certifications == (if p.certifications.Some? then p.certifications.value else r.certifications)
    ensures m.attachment == (if p.attachment.Some? then p.attachment.value else r.attachment)
    ensures m.status == (if p.status.Some? then p.status.value else r.status)
    ensures m.createdAt == (if p.createdAt.Some? then p.createdAt.value else r.createdAt)
    ensures m.updatedAt == (if p.updatedAt.Some? then p.updatedAt.value else r.updatedAt)
  {
    Resume(
      p.id.GetOr(r.id),
      p.userId.GetOr(r.userId),
      p.personalInfo.GetOr(r.personalInfo),
      p.education.GetOr(r.education),
      p.experience.GetOr(r.experience),
      p.skills.GetOr(r.skills),
      p.certifications.GetOr(r.certifications),
      p.attachment.GetOr(r.attachment),
      p.status.GetOr(r.status),
      p.createdAt.GetOr(r.createdAt),
      p.updatedAt.GetOr(r.updatedAt))
  }

  /** `updateResume`: merges the patch into the first resume with the id and stamps
      `updatedAt`; every other resume, and the order, stay as they were. */
  function UpdateResume(st: Store, id: string, patch: ResumePatch, now: Timestamp): (out: Response<Resume>)
    ensures out.result.Err? <==> forall i :: 0 <= i < |st.resumes| ==> st.resumes[i].id != id
    ensures out.result.Err? ==> out.result.error == ResumeNotFound && out.store == st
    ensures out.result.Ok? ==>
      && out.result.value.updatedAt == now
      && |out.store.resumes| == |st.resumes|
      && (exists i :: FirstWithId(st.resumes, i, id)
            && out.result.value == MergeResume(st.resumes[i], patch).(updatedAt := now)
            && out.store == st.(resumes := st.resumes[i := out.result.value]))
  {
    match IndexOfId(st.resumes, id)
    case None => Response(st, Err(ResumeNotFound))
    case Some(i) =>
      var v := MergeResume(st.resumes[i], patch).(updatedAt := now);
      Response(st.(resumes := st.resumes[i := v]), Ok(v))
  }

  /** An administrator's status change sets the status and the stamp and nothing else. */
  lemma StatusChangeOnly(st: Store, id: string, status: ResumeStatus, now: Timestamp)
    requires exists i :: 0 <= i < |st.resumes| && st.resumes[i].id == id
    ensures var out := UpdateResume(st, id, EmptyResumePatch.(status := Some(status)), now);
      && out.result.Ok?
      && GetResumeById(st, id).Some?
      && out.result.value == GetResumeById(st, id).value.(status := status, updatedAt := now)
  {
  }

  /** `deleteResume`: keeps exactly the resumes with another id; never fails. */
  function DeleteResume(st: Store, id: string): (st': Store)
    ensures forall x :: x in st'.resumes <==> x in st.resumes && x.id != id
    ensures forall x: Resume :: x.id != id ==> multiset(st'.resumes)[x] == multiset(st.resumes)[x]
    ensures st'.users == st.users && st'.session == st.session
    ensures st'.logs == st.logs && st'.resetTokens == st.resetTokens
  {
    Seqs.FilterMultiset(st.resumes, (x: Resume) => x.id != id);
    st.(resumes := Seqs.Filter(st.resumes, (x: Resume) => x.id != id))
  }

  /** Deleting twice is deleting once, and afterwards no resume has the id. */
  lemma DeleteIdempotent(st: Store, id: string)
    ensures DeleteResume(DeleteResume(st, id), id) == DeleteResume(st, id)
    ensures GetResumeById(DeleteResume(st, id), id).None?
  {
    Seqs.FilterIdempotent(st.resumes, (x: Resume) => x.id != id);
  }

  /** Deleting a resume whose id no other resume shares removes just its position and keeps
      every other resume in order. */
  lemma DeleteUniqueKeepsOrder(st: Store, i: nat)
    requires i < |st.resumes|
    requires forall k :: 0 <= k < |st.resumes| && k != i ==> st.resumes[k].id != st.resumes[i].id
    ensures DeleteResume(st, st.resumes[i].id).resumes == st.resumes[..i] + st.resumes[i + 1..]
  {
    var id := st.resumes[i].id;
    Seqs.FilterDropsAt(st.resumes, i, (x: Resume) => x.id != id);
  }

  /** Deleting an id that no resume carries changes nothing. */
  lemma DeleteAbsentUnchanged(st: Store, id: string)
    requires forall i :: 0 <= i < |st.resumes| ==> st.resumes[i].id != id
    ensures DeleteResume(st, id) == st
  {
    Seqs.FilterKeepsAll(st.resumes, (x: Resume) => x.id != id);
  }

  /** Deletion works piecewise and in order: deleting from two runs of resumes is deleting from
      each run, the first run's survivors ahead of the second's, whether or not the id repeats. */
  lemma DeleteConcat(st: Store, a: seq<Resume>, b: seq<Resume>, id: string)
    ensures DeleteResume(st.(resumes := a + b), id).resumes
         == DeleteResume(st.(resumes := a), id).resumes + DeleteResume(st.(resumes := b), id).resumes
  {
    Seqs.FilterConcat(a, b, (x: Resume) => x.id != id);
  }

  /** Round trip: deleting a freshly created resume restores the resumes as they were. */
  lemma CreateThenDelete(st: Store, input: ResumePatch, newId: string, logId: string, now: Timestamp)
    requires input.userId.Some? && input.personalInfo.Some?
    requires forall i :: 0 <= i < |st.resumes| ==> st.resumes[i].id != input.id.GetOr(newId)
    ensures var out := CreateResume(st, input, newId, logId, now);
      DeleteResume(out.store, out.result.value.id).resumes == st.resumes
  {
    var out := CreateResume(st, input, newId, logId, now);
    var r := out.result.value;
    var keep := (x: Resume) => x.id != r.id;
    Seqs.FilterConcat(st.resumes, [r], keep);
    Seqs.FilterKeepsAll(st.resumes, keep);
    assert Seqs.Filter([r], keep) == [];
  }
}

=== FILE: seqs.dfy ===
/** The two array primitives the store is built on: `findIndex` and `filter`. */
module Seqs {
  import opened Wrappers

  /** `Math.min`. */
  function Min(a: int, b: int): (m: int)
    ensures m <= a && m <= b
    ensures m == a || m == b
  {
    if a <= b then a else b
  }

  /** `Array.prototype.findIndex`: the index of the first element satisfying `p`,
      with `None` standing for the `-1` the source compares against. */
  function FirstIndex<T>(s: seq<T>, p: T -> bool): (r: Option<nat>)
    ensures r.Some? ==> r.value < |s| && p(s[r.value])
    ensures r.Some? ==> forall j :: 0 <= j < r.value ==> !p(s[j])
    ensures r.None? <==> forall j :: 0 <= j < |s| ==> !p(s[j])
    decreases |s|
  {
    if |s| == 0 then None
    else if p(s[0]) then Some(0)
    else
      match FirstIndex(s[1..], p)
      case None => None
      case Some(i) => Some(i + 1)
  }

  /** `Array.prototype.filter`: the elements satisfying `p`, in their original order. */
  function Filter<T(==,!new)>(s: seq<T>, p: T -> bool): (r: seq<T>)
    ensures |r| <= |s|
    ensures forall x :: x in r <==> x in s && p(x)
    decreases |s|
  {
    if |s| == 0 then []
    else
      assert s == [s[0]] + s[1..];
      (if p(s[0]) then [s[0]] else []) + Filter(s[1..], p)
  }

  /** Filtering keeps every passing element as often as it occurs and drops every failing one. */
  lemma {:induction false} FilterMultiset<T(!new)>(s: seq<T>, p: T -> bool)
    ensures forall x :: multiset(Filter(s, p))[x] == if p(x) then multiset(s)[x] else 0
    decreases |s|
  {
    if |s| > 0 {
      assert s == [s[0]] + s[1..];
      FilterMultiset(s[1..], p);
    }
  }

  /** Filtering distributes over concatenation: the survivors keep their relative order. */
  lemma {:induction false} FilterConcat<T(!new)>(a: seq<T>, b: seq<T>, p: T -> bool)
    ensures Filter(a + b, p) == Filter(a, p) + Filter(b, p)
    decreases |a|
  {
    if |a| == 0 {
      assert a + b == b;
    } else {
      assert (a + b)[1..] == a[1..] + b;
      FilterConcat(a[1..], b, p);
    }
  }

  /** Filtering twice with the same test is filtering once. */
  lemma FilterIdempotent<T(!new)>(s: seq<T>, p: T -> bool)
    ensures Filter(Filter(s, p), p) == Filter(s, p)
  {
    var r := Filter(s, p);
    forall i | 0 <= i < |r|
      ensures p(r[i])
    {
      assert r[i] in r;
    }
    FilterKeepsAll(r, p);
  }

  /** Filtering keeps a sequence whose every element passes the test. */
  lemma {:induction false} FilterKeepsAll<T(!new)>(s: seq<T>, p: T -> bool)
    requires forall i :: 0 <= i < |s| ==> p(s[i])
    ensures Filter(s, p) == s
    decreases |s|
  {
    if |s| > 0 {
      FilterKeepsAll(s[1..], p);
    }
  }

  /** Filtering out a failing head before passing elements leaves the tail. */
  lemma FilterDropsHead<T(!new)>(s: seq<T>, p: T -> bool)
    requires 0 < |s|
    requires forall k :: 0 < k < |s| ==> p(s[k])
    requires !p(s[0])
    ensures Filter(s, p) == s[1..]
  {
    var tail := s[1..];
    forall k | 0 <= k < |tail| ensures p(tail[k]) {
      assert tail[k] == s[k + 1];
    }
    FilterKeepsAll(tail, p);
    assert Filter(s, p) == [] + Filter(tail, p);
  }

  /** Filtering out exactly the element at position `i` deletes that position. */
  lemma {:induction false} FilterDropsAt<T(!new)>(s: seq<T>, i: nat, p: T -> bool)
    requires i < |s|
    requires forall k :: 0 <= k < |s| && k != i ==> p(s[k])
    requires !p(s[i])
    ensures Filter(s, p) == s[..i] + s[i + 1..]
    decreases |s|
  {
    if i == 0 {
      FilterDropsHead(s, p);
      assert s[..0] + s[1..] == s[1..];
    } else {
      var tail := s[1..];
      forall k | 0 <= k < |tail| && k != i - 1 ensures p(tail[k]) {
        assert tail[k] == s[k + 1];
      }
      assert tail[i - 1] == s[i];
      FilterDropsAt(tail, i - 1, p);
      assert Filter(s, p) == [s[0]] + Filter(tail, p);
      DeleteBehindHead(s, i);
    }
  }

  /** Deleting position `i > 0` is keeping the head and deleting position `i - 1` of the tail. */
  lemma DeleteBehindHead<T>(s: seq<T>, i: nat)
    requires 0 < i < |s|
    ensures s[..i] + s[i + 1..] == [s[0]] + (s[1..][..i - 1] + s[1..][i..])
  {
    assert s[..i] == [s[0]] + s[1..][..i - 1];
    assert s[i + 1..] == s[1..][i..];
  }

  /** An element found at two positions occurs at least twice. */
  lemma OccursTwice<T>(s: seq<T>, i: nat, j: nat)
    requires i < j < |s| && s[i] == s[j]
    ensures multiset(s)[s[i]] >= 2
  {
    assert s == s[..j] + [s[j]] + s[j + 1..];
    assert s[i] in s[..j];
  }

  /** The test passed by exactly the elements passing both `p` and `q`. */
  function Both<T(!new)>(p: T -> bool, q: T -> bool): (pq: T -> bool)
    ensures forall x :: pq(x) == (p(x) && q(x))
  {
    x => p(x) && q(x)
  }

  /** Two filters in a row are one filter by the conjunction of their tests. */
  lemma {:induction false} FilterFilter<T(!new)>(s: seq<T>, p: T -> bool, q: T -> bool)
    ensures Filter(Filter(s, p), q) == Filter(s, Both(p, q))
    decreases |s|
  {
    if |s| > 0 {
      var pq := Both(p, q);
      var rest := Filter(s[1..], p);
      FilterFilter(s[1..], p, q);
      assert Filter(s, pq) == (if pq(s[0]) then [s[0]] else []) + Filter(s[1..], pq);
      if p(s[0]) {
        var once := [s[0]] + rest;
        assert Filter(s, p) == once;
        assert once[0] == s[0] && once[1..] == rest;
        assert Filter(once, q) == (if q(s[0]) then [s[0]] else []) + Filter(rest, q);
      } else {
        assert Filter(s, p) == rest;
      }
    }
  }
}

=== FILE: stats.dfy ===
/** `getDashboardStats` (services/api.ts): the account and resume counts, the
    resumes created today, and the five most listed skills. */
module Stats {
  import opened Wrappers
  import opened Types
  import Seqs
  import Accounts

  /** One `{ name, value }` entry of `skillsData`. */
  datatype SkillCount = SkillCount(name: string, count: nat)

  /** The derived part of `DashboardStats`; the fixed average and weekly series are not modelled. */
  datatype DashboardStats = DashboardStats(
    totalUsers: nat,
    totalResumes: nat,
    submittedToday: nat,
    skillsData: seq<SkillCount>)

  /** The length of the skill chart, `slice(0, 5)`. */
  const TopSkills: nat := 5

  /** Every skill of every resume, in the order the nested `forEach` visits them. */
  function AllSkills(resumes: seq<Resume>): seq<string>
    decreases |resumes|
  {
    if |resumes| == 0 then [] else resumes[0].skills + AllSkills(resumes[1..])
  }

  /** How many times a skill is listed across all resumes. */
  function Occurrences(resumes: seq<Resume>, skill: string): nat {
    multiset(AllSkills(resumes))[skill]
  }

  ghost predicate Listed(t: seq<SkillCount>, name: string) {
    exists i :: 0 <= i < |t| && t[i].name == name
  }

  ghost predicate DistinctNames(t: seq<SkillCount>) {
    forall i, j :: 0 <= i < j < |t| ==> t[i].name != t[j].name
  }

  ghost predicate NonIncreasing(t: seq<SkillCount>) {
    forall i, j :: 0 <= i < j < |t| ==> t[i].count >= t[j].count
  }

  /** `skillsMap[name] || 0`: the count recorded for a name, zero when absent. */
  function CountOf(t: seq<SkillCount>, name: string): nat
    decreases |t|
  {
    if |t| == 0 then 0 else if t[0].name == name then t[0].count else CountOf(t[1..], name)
  }

  /** With distinct names, the recorded count of an entry's name is that entry's count. */
  lemma {:induction false} CountOfEntry(t: seq<SkillCount>, i: nat)
    requires DistinctNames(t)
    requires i < |t|
    ensures CountOf(t, t[i].name) == t[i].count
    decreases |t|
  {
    if i > 0 {
      assert t[0].name != t[i].name;
      CountOfEntry(t[1..], i - 1);
    }
  }

  /** The names listed by an entry followed by a list. */
  lemma ListedCons(h: SkillCount, rest: seq<SkillCount>)
    ensures forall n :: Listed([h] + rest, n) <==> n == h.name || Listed(rest, n)
  {
    var r := [h] + rest;
    forall n | Listed(r, n) ensures n == h.name || Listed(rest, n) {
      var i :| 0 <= i < |r| && r[i].name == n;
      if i > 0 { assert rest[i - 1].name == n; }
    }
    forall n | Listed(rest, n) ensures Listed(r, n) {
      var i :| 0 <= i < |rest| && rest[i].name == n;
      assert r[i + 1].name == n;
    }
    assert r[0].name == h.name;
  }

  /** Distinct names split into a head name absent from a distinct tail, and back. */
  lemma DistinctCons(h: SkillCount, rest: seq<SkillCount>)
    ensures DistinctNames([h] + rest) <==> DistinctNames(rest) && !Listed(rest, h.name)
  {
    var r := [h] + rest;
    if DistinctNames(r) {
      forall i, j | 0 <= i < j < |rest| ensures rest[i].name != rest[j].name {
        assert r[i + 1] == rest[i] && r[j + 1] == rest[j];
      }
      forall i | 0 <= i < |rest| ensures rest[i].name != h.name {
        assert r[0] == h && r[i + 1] == rest[i];
        assert r[0].name != r[i + 1].name;
      }
    }
    if DistinctNames(rest) && !Listed(rest, h.name) {
      forall i, j | 0 <= i < j < |r| ensures r[i].name != r[j].name {
        if i == 0 {
          assert r[j] == rest[j - 1];
        } else {
          assert r[i] == rest[i - 1] && r[j] == rest[j - 1];
        }
      }
    }
  }

  /** `skillsMap[s] = (skillsMap[s] || 0) + 1` on the entries of the map in key insertion
      order: a known skill's entry is incremented in place, a new one is appended with 1. */
  function Bump(t: seq<SkillCount>, s: string): (r: seq<SkillCount>)
    ensures forall n :: CountOf(r, n) == CountOf(t, n) + (if n == s then 1 else 0)
    ensures forall n :: Listed(r, n) <==> Listed(t, n) || n == s
    ensures DistinctNames(t) ==> DistinctNames(r)
    decreases |t|
  {
    if |t| == 0 then
      var h := SkillCount(s, 1);
      assert [h] == [h] + [];
      ListedCons(h, []);
      [h]
    else
      assert t == [t[0]] + t[1..];
      ListedCons(t[0], t[1..]);
      DistinctCons(t[0], t[1..]);
      if t[0].name == s then
        var h := t[0].(count := t[0].count + 1);
        ListedCons(h, t[1..]);
        DistinctCons(h, t[1..]);
        assert ([h] + t[1..])[1..] == t[1..];
        [h] + t[1..]
      else
        var rest := Bump(t[1..], s);
        ListedCons(t[0], rest);
        DistinctCons(t[0], rest);
        assert ([t[0]] + rest)[1..] == rest;
        [t[0]] + rest
  }

  /** The entries of `skillsMap` after tallying `skills` from an empty map. */
  function TallyOf(skills: seq<string>): (t: seq<SkillCount>)
    ensures DistinctNames(t)
    ensures forall n :: Listed(t, n) <==> n in skills
    ensures forall n :: CountOf(t, n) == multiset(skills)[n]
    decreases |skills|
  {
    if |skills| == 0 then []
    else
      var init := skills[..|skills| - 1];
      var last := skills[|skills| - 1];
      assert skills == init + [last];
      assert forall n :: n in skills <==> n in init || n == last;
      Bump(TallyOf(init), last)
  }

  /** Every tallied entry carries the number of times its skill was seen. */
  lemma TallyCounts(skills: seq<string>)
    ensures var t := TallyOf(skills);
      forall i :: 0 <= i < |t| ==> t[i].count == multiset(skills)[t[i].name] > 0
  {
    var t := TallyOf(skills);
    forall i | 0 <= i < |t|
      ensures t[i].count == multiset(skills)[t[i].name] > 0
    {
      CountOfEntry(t, i);
      assert Listed(t, t[i].name);
    }
  }

  /** Inserts `e` ahead of the first entry with a smaller count, so that among equal
      counts the earlier entries stay first, as the stable `sort` keeps them. */
  function Insert(e: SkillCount, t: seq<SkillCount>): (r: seq<SkillCount>)
    ensures |r| == |t| + 1
    ensures multiset(r) == multiset(t) + multiset{e}
    decreases |t|
  {
    if |t| == 0 then [e]
    else if t[0].count < e.count then [e] + t
    else
      assert t == [t[0]] + t[1..];
      [t[0]] + Insert(e, t[1..])
  }

  /** No entry is counted more than `c` times. */
  ghost predicate AtMost(t: seq<SkillCount>, c: nat) {
    forall k :: 0 <= k < |t| ==> t[k].count <= c
  }

  /** An ordered list stays ordered behind an entry counted at least as often as all of it. */
  lemma SortedCons(h: SkillCount, rest: seq<SkillCount>)
    requires NonIncreasing(rest) && AtMost(rest, h.count)
    ensures NonIncreasing([h] + rest)
  {
    var r := [h] + rest;
    forall i, j | 0 <= i < j < |r|
      ensures r[i].count >= r[j].count
    {
      assert r[j] == rest[j - 1];
      if i > 0 {
        assert r[i] == rest[i - 1];
      }
    }
  }

  /** Insertion adds no entry counted more than `c` times when `e` is not. */
  lemma {:induction false} InsertAtMost(e: SkillCount, t: seq<SkillCount>, c: nat)
    requires AtMost(t, c) && e.count <= c
    ensures AtMost(Insert(e, t), c)
    decreases |t|
  {
    if |t| > 0 && t[0].count >= e.count {
      InsertAtMost(e, t[1..], c);
      var r := Insert(e, t);
      forall k | 0 <= k < |r| ensures r[k].count <= c {
        if k > 0 {
          assert r[k] == Insert(e, t[1..])[k - 1];
        }
      }
    }
  }

  /** Inserting into a list ordered by non-increasing count keeps it ordered. */
  lemma {:induction false} InsertSorted(e: SkillCount, t: seq<SkillCount>)
    requires NonIncreasing(t)
    ensures NonIncreasing(Insert(e, t))
    decreases |t|
  {
    if |t| > 0 {
      forall k | 0 <= k < |t[1..]| ensures t[1..][k].count <= t[0].count {
        assert t[1..][k] == t[k + 1];
      }
      if t[0].count < e.count {
        assert t == [t[0]] + t[1..];
        SortedCons(e, t);
      } else {
        InsertSorted(e, t[1..]);
        InsertAtMost(e, t[1..], t[0].count);
        SortedCons(t[0], Insert(e, t[1..]));
      }
    }
  }

  /** `sort((a, b) => b.value - a.value)` as a stable insertion sort. */
  function SortDesc(t: seq<SkillCount>): (r: seq<SkillCount>)
    ensures |r| == |t|
    ensures multiset(r) == multiset(t)
    ensures NonIncreasing(r)
    decreases |t|
  {
    if |t| == 0 then []
    else
      assert t == t[..|t| - 1] + [t[|t| - 1]];
      InsertSorted(t[|t| - 1], SortDesc(t[..|t| - 1]));
      Insert(t[|t| - 1], SortDesc(t[..|t| - 1]))
  }

  /** Sorting keeps names distinct: it only rearranges the entries. */
  lemma SortKeepsNamesDistinct(t: seq<SkillCount>)
    requires DistinctNames(t)
    ensures DistinctNames(SortDesc(t))
  {
    var r := SortDesc(t);
    forall i, j | 0 <= i < j < |r|
      ensures r[i].name != r[j].name
    {
      assert r[i] in multiset(t) && r[j] in multiset(t);
      var a :| 0 <= a < |t| && t[a] == r[i];
      var b :| 0 <= b < |t| && t[b] == r[j];
      if a == b {
        Seqs.OccursTwice(r, i, j);
        DistinctOnce(t, a);
        assert false;
      }
    }
  }

  /** With distinct names, every entry occurs once. */
  lemma {:induction false} DistinctOnce(s: seq<SkillCount>, a: nat)
    requires DistinctNames(s)
    requires a < |s|
    ensures multiset(s)[s[a]] == 1
    decreases |s|
  {
    assert s == [s[0]] + s[1..];
    if a == 0 {
      assert s[0] !in s[1..] by {
        forall k | 0 <= k < |s[1..]| ensures s[1..][k] != s[0] {
          assert s[1..][k].name == s[k + 1].name;
        }
      }
    } else {
      assert s[1..][a - 1] == s[a];
      DistinctOnce(s[1..], a - 1);
      assert s[0].name != s[a].name;
    }
  }

  /** The `skillsData` of the dashboard: the tally, sorted, cut to five. */
  function SkillsData(resumes: seq<Resume>): seq<SkillCount> {
    var sorted := SortDesc(TallyOf(AllSkills(resumes)));
    sorted[..Seqs.Min(|sorted|, TopSkills)]
  }

  /** Every entry of a rearranged tally carries its skill's number of occurrences. */
  lemma RearrangedCounts(skills: seq<string>, sorted: seq<SkillCount>)
    requires multiset(sorted) == multiset(TallyOf(skills))
    ensures forall i :: 0 <= i < |sorted| ==> sorted[i].count == multiset(skills)[sorted[i].name] > 0
  {
    var tally := TallyOf(skills);
    TallyCounts(skills);
    forall i | 0 <= i < |sorted|
      ensures sorted[i].count == multiset(skills)[sorted[i].name] > 0
    {
      assert sorted[i] in multiset(tally);
      var a :| 0 <= a < |tally| && tally[a] == sorted[i];
    }
  }

  /** An entry whose name the first `k` entries do not list sits at or after position `k`. */
  lemma UnlistedComesAfter(t: seq<SkillCount>, k: nat, j: nat)
    requires k <= |t| && j < |t| && !Listed(t[..k], t[j].name)
    ensures k <= j
  {
  }

  /** A seen skill missing from the first `k` entries of the sorted tally comes after all of them. */
  lemma PrefixComplete(skills: seq<string>, sorted: seq<SkillCount>, k: nat, s: string)
    requires multiset(sorted) == multiset(TallyOf(skills))
    requires NonIncreasing(sorted)
    requires k <= |sorted|
    requires s in skills && !Listed(sorted[..k], s)
    ensures k < |sorted|
    ensures forall i :: 0 <= i < k ==> sorted[i].count >= multiset(skills)[s]
  {
    var tally := TallyOf(skills);
    TallyCounts(skills);
    assert Listed(tally, s);
    var a :| 0 <= a < |tally| && tally[a].name == s;
    assert tally[a] in multiset(sorted);
    var j :| 0 <= j < |sorted| && sorted[j] == tally[a];
    assert sorted[j].count == multiset(skills)[s];
    UnlistedComesAfter(sorted, k, j);
    forall i | 0 <= i < k
      ensures sorted[i].count >= multiset(skills)[s]
    {
      assert sorted[i].count >= sorted[j].count;
    }
  }

  /** The chart lists at most five distinct skills, most listed first, each with its true
      number of occurrences, and any skill left off is listed no more often than every shown one. */
  lemma SkillsDataTopFive(resumes: seq<Resume>)
    ensures var r := SkillsData(resumes);
      && |r| <= TopSkills
      && NonIncreasing(r)
      && DistinctNames(r)
      && (forall i :: 0 <= i < |r| ==> r[i].count == Occurrences(resumes, r[i].name) > 0)
      && (forall s :: s in AllSkills(resumes) && !Listed(r, s) ==>
            |r| == TopSkills && forall i :: 0 <= i < |r| ==> r[i].count >= Occurrences(resumes, s))
  {
    var skills := AllSkills(resumes);
    var tally := TallyOf(skills);
    var sorted := SortDesc(tally);
    var m := Seqs.Min(|sorted|, TopSkills);
    var r := SkillsData(resumes);
    assert r == sorted[..m];
    SortKeepsNamesDistinct(tally);
    PrefixKeepsOrder(sorted, m);
    RearrangedCounts(skills, sorted);
    forall i | 0 <= i < |r|
      ensures r[i].count == Occurrences(resumes, r[i].name) > 0
    {
      assert r[i] == sorted[i];
    }
    forall s | s in skills && !Listed(r, s)
      ensures |r| == TopSkills && forall i :: 0 <= i < |r| ==> r[i].count >= Occurrences(resumes, s)
    {
      PrefixComplete(skills, sorted, m, s);
    }
  }

  /** A prefix of an ordered list with distinct names is ordered and has distinct names. */
  lemma PrefixKeepsOrder(t: seq<SkillCount>, m: nat)
    requires m <= |t|
    requires NonIncreasing(t) && DistinctNames(t)
    ensures NonIncreasing(t[..m]) && DistinctNames(t[..m])
  {
    var p := t[..m];
    forall i, j | 0 <= i < j < |p|
      ensures p[i].count >= p[j].count && p[i].name != p[j].name
    {
      assert p[i] == t[i] && p[j] == t[j];
    }
  }

  /** Resumes whose creation date is today's date; `isToday` stands for the `toDateString` comparison. */
  function SubmittedToday(resumes: seq<Resume>, isToday: Timestamp -> bool): (n: nat)
    ensures n == |TodayIndices(resumes, isToday)|
    ensures n <= |resumes|
  {
    TodayCount(resumes, isToday);
    |Seqs.Filter(resumes, CreatedOn(isToday))|
  }

  function CreatedOn(isToday: Timestamp -> bool): Resume -> bool {
    (r: Resume) => isToday(r.createdAt)
  }

  /** The positions of the resumes created today. */
  ghost function TodayIndices(resumes: seq<Resume>, isToday: Timestamp -> bool): set<nat> {
    set i: nat | i < |resumes| && isToday(resumes[i].createdAt)
  }

  /** The filtered list has one element per position created today. */
  lemma {:induction false} TodayCount(resumes: seq<Resume>, isToday: Timestamp -> bool)
    ensures |Seqs.Filter(resumes, CreatedOn(isToday))| == |TodayIndices(resumes, isToday)|
    decreases |resumes|
  {
    if |resumes| == 0 {
      assert TodayIndices(resumes, isToday) == {};
    } else {
      var n := |resumes| - 1;
      var init, last := resumes[..n], resumes[n];
      assert resumes == init + [last];
      TodayCount(init, isToday);
      FilterSnoc(init, last, CreatedOn(isToday));
      TodayIndicesSnoc(init, last, isToday);
      var before := TodayIndices(init, isToday);
      assert n !in before;
    }
  }

  /** Appending one resume adds one filtered element exactly when it passes. */
  lemma FilterSnoc(init: seq<Resume>, last: Resume, p: Resume -> bool)
    ensures |Seqs.Filter(init + [last], p)| == |Seqs.Filter(init, p)| + (if p(last) then 1 else 0)
  {
    Seqs.FilterConcat(init, [last], p);
    assert [last][1..] == [];
  }

  /** Appending one resume adds its position exactly when it was created today. */
  lemma TodayIndicesSnoc(init: seq<Resume>, last: Resume, isToday: Timestamp -> bool)
    ensures TodayIndices(init + [last], isToday) ==
      TodayIndices(init, isToday) + (if isToday(last.createdAt) then {|init|} else {})
  {
    var s := init + [last];
    forall i: nat | i < |init| ensures s[i] == init[i] {}
    assert s[|init|] == last;
  }

  /** `getDashboardStats`: reads the accounts (seeding them) and the resumes, and never fails. */
  function GetDashboardStats(st: Store, now: Timestamp, isToday: Timestamp -> bool): (out: Response<DashboardStats>)
    ensures out.store == Accounts.Seed(st, now)
    ensures out.result.Ok?
    ensures var d := out.result.value;
      && d.totalUsers == |Accounts.GetUsers(st, now)|
      && d.totalResumes == |st.resumes|
      && d.submittedToday == SubmittedToday(st.resumes, isToday)
      && d.submittedToday <= d.totalResumes
      && d.skillsData == SkillsData(st.resumes)
  {
    var d := DashboardStats(|Accounts.GetUsers(st, now)|, |st.resumes|,
                            SubmittedToday(st.resumes, isToday), SkillsData(st.resumes));
    Response(Accounts.Seed(st, now), Ok(d))
  }
}

=== FILE: types.dfy ===
/** The records of the resume store (types.ts) and the abstract state of its
    browser storage: one value per storage key. */
module Types {
  import opened Wrappers

  /** Timestamps are epoch milliseconds; the source stores them as ISO strings. */
  type Timestamp = nat

  datatype UserRole = User | Admin

  datatype ResumeStatus = Draft | Submitted | Archived

  /** A stored account: the `User` interface plus the two fields the store keeps
      in the same record without declaring them, `password` and `verificationToken`. */
  datatype UserRec = UserRec(
    id: string,
    email: string,
    firstName: string,
    lastName: string,
    phone: Option<string>,
    role: UserRole,
    isVerified: bool,
    createdAt: Timestamp,
    password: Option<string>,
    verificationToken: Option<string>)

  /** `Partial<User>`: `None` is a key the patch does not carry. */
  datatype UserPatch = UserPatch(
    id: Option<string>,
    email: Option<string>,
    firstName: Option<string>,
    lastName: Option<string>,
    phone: Option<string>,
    role: Option<UserRole>,
    isVerified: Option<bool>,
    createdAt: Option<Timestamp>)

  /** Grade points are a JavaScript number; `real` stands for it. */
  datatype Education = Education(
    id: string,
    institution: string,
    degree: string,
    field: string,
    startDate: string,
    endDate: Option<string>,
    gpa: Option<real>)

  datatype Experience = Experience(
    id: string,
    company: string,
    position: string,
    description: string,
    startDate: string,
    endDate: Option<string>,
    achievements: seq<string>)

  datatype Certification = Certification(
    id: string,
    name: string,
    issuer: string,
    issueDate: string,
    expiryDate: Option<string>)

  datatype PersonalInfo = PersonalInfo(
    fullName: string,
    email: string,
    phone: string,
    address: string,
    linkedin: string,
    summary: string)

  /** An uploaded file; `data` is the encoded content, kept opaque. */
  datatype Attachment = Attachment(name: string, mimeType: string, size: nat, data: string)

  datatype Resume = Resume(
    id: string,
    userId: string,
    personalInfo: PersonalInfo,
    education: seq<Education>,
    experience: seq<Experience>,
    skills: seq<string>,
    certifications: seq<Certification>,
    attachment: Option<Attachment>,
    status: ResumeStatus,
    createdAt: Timestamp,
    updatedAt: Timestamp)

  /** `Partial<Resume>`. The attachment key can be present with the value
      `undefined` (the wizard always sends it), hence the nested option. */
  datatype ResumePatch = ResumePatch(
    id: Option<string>,
    userId: Option<string>,
    personalInfo: Option<PersonalInfo>,
    education: Option<seq<Education>>,
    experience: Option<seq<Experience>>,
    skills: Option<seq<string>>,
    certifications: Option<seq<Certification>>,
    attachment: Option<Option<Attachment>>,
    status: Option<ResumeStatus>,
    createdAt: Option<Timestamp>,
    updatedAt: Option<Timestamp>)

  /** The patch that carries no key at all. */
  const EmptyResumePatch := ResumePatch(None, None, None, None, None, None, None, None, None, None, None)

  datatype AuditLog = AuditLog(
    id: string,
    action: string,
    performedBy: string,
    targetId: string,
    details: string,
    timestamp: Timestamp)

  /** The value a password-reset token maps to. */
  datatype ResetEntry = ResetEntry(userId: string, expiry: nat)

  /** The five storage keys. `users == None` is the absent `rmp_users` key,
      which makes the next read seed the default administrator. */
  datatype Store = Store(
    users: Option<seq<UserRec>>,
    resumes: seq<Resume>,
    logs: seq<AuditLog>,
    session: Option<UserRec>,
    resetTokens: map<string, ResetEntry>)

  /** Storage with none of the keys set. */
  const EmptyStore := Store(None, [], [], None, map[])

  /** The errors the store throws, one per distinct message. */
  datatype ApiError =
    | InvalidCredentials
    | EmailAlreadyRegistered
    | NoAccountForEmail
    | InvalidResetToken
    | UserNotFound
    | InvalidVerificationToken
    | ResumeNotFound
  {
    function Message(): string {
      match this
      case InvalidCredentials => "Invalid credentials"
      case EmailAlreadyRegistered => "Email already registered"
      case NoAccountForEmail => "No account found with this email address"
      case InvalidResetToken => "Invalid or expired reset token"
      case UserNotFound => "User not found"
      case InvalidVerificationToken => "Invalid or expired verification token"
      case ResumeNotFound => "Resume not found"
    }
  }

  /** Each error carries its own message: a caller that shows `err.message` can tell every
      failure apart. */
  lemma MessagesDistinct(a: ApiError, b: ApiError)
    ensures a.Message() == b.Message() <==> a == b
  {
  }

  /** What an operation leaves in storage, and what it returns or throws. The
      store is kept on failure too: a read that seeds the administrator has
      already been persisted when a later check throws. */
  datatype Response<+T> = Response(store: Store, result: Result<T, ApiError>)
}

=== FILE: wizard.dfy ===
/** The state helpers of the resume submission wizard (pages/SubmitResume.tsx):
    step navigation, the skill list, the attachment check, the repeatable
    education and experience entries, and the final submit. */
module Wizard {
  import opened Wrappers
  import opened Types
  import Seqs
  import Audit
  import Resumes

  /** Personal info, resume file, education, experience, skills, review. */
  const StepCount: nat := 6

  const LastStep: nat := StepCount - 1

  /** The "Next" button: one step on, never past the review step. */
  function NextStep(step: nat): (r: nat)
    ensures r <= LastStep
    ensures step < LastStep ==> r == step + 1
    ensures step >= LastStep ==> r == LastStep
  {
    Seqs.Min(step + 1, LastStep)
  }

  /** The "Back" button: one step back, never before the first. */
  function PrevStep(step: nat): (r: nat)
    ensures step > 0 ==> r == step - 1
    ensures step == 0 ==> r == 0
  {
    if step >= 1 then step - 1 else 0
  }

  datatype Move = Next | Back

  /** The step reached after pressing the buttons in order. */
  function Walk(step: nat, moves: seq<Move>): nat
    decreases |moves|
  {
    if |moves| == 0 then step
    else Walk(if moves[0] == Next then NextStep(step) else PrevStep(step), moves[1..])
  }

  /** From the first step, no sequence of button presses leaves the six steps. */
  lemma {:induction false} WalkStaysInRange(step: nat, moves: seq<Move>)
    requires step <= LastStep
    ensures Walk(step, moves) <= LastStep
    decreases |moves|
  {
    if |moves| > 0 {
      WalkStaysInRange(if moves[0] == Next then NextStep(step) else PrevStep(step), moves[1..]);
    }
  }

  /** Back undoes Next below the last step, and Next undoes Back above the first. */
  lemma StepsUndo(step: nat)
    requires step <= LastStep
    ensures step < LastStep ==> PrevStep(NextStep(step)) == step
    ensures step > 0 ==> NextStep(PrevStep(step)) == step
  {
  }

  /** The wizard's `formData`. */
  datatype FormData = FormData(
    personalInfo: PersonalInfo,
    attachment: Option<Attachment>,
    education: seq<Education>,
    experience: seq<Experience>,
    skills: seq<string>,
    certifications: seq<Certification>)

  /** The wizard's state: the current step, the form, and the pending skill input. */
  datatype WizardState = WizardState(step: nat, form: FormData, newSkill: string)

  function BlankEducation(id: string): Education {
    Education(id, "", "", "", "", Some(""), None)
  }

  function BlankExperience(id: string): Experience {
    Experience(id, "", "", "", "", Some(""), [""])
  }

  /** The form the wizard opens with: one blank education and experience entry, id "1". */
  const InitialForm := FormData(PersonalInfo("", "", "", "", "", ""), None,
                                [BlankEducation("1")], [BlankExperience("1")], [], [])

  const InitialState := WizardState(0, InitialForm, "")

  /** The wizard opens on the first step with an empty, duplicate-free skill list and no
      attachment, and no sequence of button presses takes it past the review step. */
  lemma InitialStateSound(moves: seq<Move>)
    ensures InitialState.step == 0 && InitialState.newSkill == ""
    ensures InitialState.form.skills == [] && Unique(InitialState.form.skills)
    ensures InitialState.form.attachment.None? && AttachmentAccepted(InitialState.form)
    ensures |InitialState.form.education| == 1 && |InitialState.form.experience| == 1
    ensures Walk(InitialState.step, moves) <= LastStep
  {
    WalkStaysInRange(InitialState.step, moves);
  }

  ghost predicate Unique(s: seq<string>) {
    forall i, j :: 0 <= i < j < |s| ==> s[i] != s[j]
  }

  /** The "Add" skill button: appends the pending skill only when it is non-empty and
      not yet listed, and clears the input only then. */
  function AddSkill(w: WizardState): (r: WizardState)
    ensures Unique(w.form.skills) ==> Unique(r.form.skills)
    ensures w.newSkill != "" && w.newSkill !in w.form.skills ==>
      r == w.(form := w.form.(skills := w.form.skills + [w.newSkill]), newSkill := "")
    ensures !(w.newSkill != "" && w.newSkill !in w.form.skills) ==> r == w
  {
    if w.newSkill != "" && w.newSkill !in w.form.skills then
      w.(form := w.form.(skills := w.form.skills + [w.newSkill]), newSkill := "")
    else w
  }

  function Without(skill: string): string -> bool {
    (s: string) => s != skill
  }

  /** The remove button of a skill chip: drops every occurrence of that skill. */
  function RemoveSkill(form: FormData, skill: string): (r: FormData)
    ensures forall s :: s in r.skills <==> s in form.skills && s != skill
    ensures Unique(form.skills) ==> Unique(r.skills)
    ensures r == form.(skills := r.skills)
  {
    var kept := Seqs.Filter(form.skills, Without(skill));
    Seqs.FilterMultiset(form.skills, Without(skill));
    assert Unique(form.skills) ==> Unique(kept) by {
      if Unique(form.skills) {
        forall i, j | 0 <= i < j < |kept|
          ensures kept[i] != kept[j]
        {
          if kept[i] == kept[j] {
            UniqueOnce(form.skills, kept[i]);
            Seqs.OccursTwice(kept, i, j);
          }
        }
      }
    }
    form.(skills := kept)
  }

  /** A duplicate-free list holds each of its elements once. */
  lemma {:induction false} UniqueOnce(s: seq<string>, x: string)
    requires Unique(s)
    ensures multiset(s)[x] <= 1
    decreases |s|
  {
    if |s| > 0 {
      assert s == [s[0]] + s[1..];
      UniqueOnce(s[1..], x);
      if x == s[0] {
        assert x !in s[1..];
      }
    }
  }

  /** In a duplicate-free list, removing a listed skill deletes exactly its position and keeps
      every other skill in order. */
  lemma RemoveSkillKeepsOrder(form: FormData, i: nat)
    requires Unique(form.skills)
    requires i < |form.skills|
    ensures RemoveSkill(form, form.skills[i]).skills == form.skills[..i] + form.skills[i + 1..]
  {
    var skills := form.skills;
    var p := Without(skills[i]);
    forall k | 0 <= k < |skills| && k != i
      ensures p(skills[k])
    {
      if k < i {
        assert skills[k] != skills[i];
      } else {
        assert skills[i] != skills[k];
      }
    }
    Seqs.FilterDropsAt(skills, i, p);
  }

  /** Removing the skill just added gives back the list as it was. */
  lemma AddThenRemoveSkill(w: WizardState)
    requires w.newSkill != "" && w.newSkill !in w.form.skills
    ensures RemoveSkill(AddSkill(w).form, w.newSkill) == w.form
  {
    var p := Without(w.newSkill);
    Seqs.FilterConcat(w.form.skills, [w.newSkill], p);
    Seqs.FilterKeepsAll(w.form.skills, p);
    assert Seqs.Filter([w.newSkill], p) == [];
  }

  /** The file as the browser reports it. */
  datatype FileInfo = FileInfo(name: string, mimeType: string, size: nat)

  const PdfType := "application/pdf"
  const DocType := "application/msword"
  const DocxType := "application/vnd.openxmlformats-officedocument.wordprocessingml.document"

  /** The attachment lies within the three accepted document types. */
  predicate AttachmentAccepted(form: FormData) {
    form.attachment.None? || form.attachment.value.mimeType in {PdfType, DocType, DocxType}
  }

  /** `handleFile`: a PDF, DOC or DOCX becomes the attachment, with the read `data`;
      any other type leaves the form as it was. */
  function HandleFile(form: FormData, file: FileInfo, data: string): (r: FormData)
    ensures file.mimeType in {PdfType, DocType, DocxType} ==>
      r == form.(attachment := Some(Attachment(file.name, file.mimeType, file.size, data)))
    ensures file.mimeType !in {PdfType, DocType, DocxType} ==> r == form
    ensures AttachmentAccepted(form) ==> AttachmentAccepted(r)
  {
    if file.mimeType == PdfType || file.mimeType == DocType || file.mimeType == DocxType then
      form.(attachment := Some(Attachment(file.name, file.mimeType, file.size, data)))
    else form
  }

  /** The "Remove and Change" button. */
  function ClearAttachment(form: FormData): (r: FormData)
    ensures r.attachment.None? && AttachmentAccepted(r)
    ensures r == form.(attachment := r.attachment)
  {
    form.(attachment := None)
  }

  /** "Add Education": one blank entry at the end, existing entries untouched. */
  function AddEducation(form: FormData, newId: string): (r: FormData)
    ensures |r.education| == |form.education| + 1
    ensures r.education[..|form.education|] == form.education
    ensures r.education[|form.education|] == BlankEducation(newId)
    ensures r == form.(education := r.education)
  {
    form.(education := form.education + [BlankEducation(newId)])
  }

  /** "Add Experience": one blank entry, with one empty achievement, at the end. */
  function AddExperience(form: FormData, newId: string): (r: FormData)
    ensures |r.experience| == |form.experience| + 1
    ensures r.experience[..|form.experience|] == form.experience
    ensures r.experience[|form.experience|] == BlankExperience(newId)
    ensures r == form.(experience := r.experience)
  {
    form.(experience := form.experience + [BlankExperience(newId)])
  }

  function OtherEducation(id: string): Education -> bool {
    (e: Education) => e.id != id
  }

  /** The trash button of an education entry: drops every entry with that id. */
  function RemoveEducation(form: FormData, id: string): (r: FormData)
    ensures forall e :: e in r.education <==> e in form.education && e.id != id
    ensures forall e: Education :: e.id != id ==> multiset(r.education)[e] == multiset(form.education)[e]
    ensures r == form.(education := r.education)
  {
    Seqs.FilterMultiset(form.education, OtherEducation(id));
    form.(education := Seqs.Filter(form.education, OtherEducation(id)))
  }

  /** Removing an entry whose id no other entry shares deletes just its position and keeps every
      other entry in order. */
  lemma RemoveEducationKeepsOrder(form: FormData, i: nat)
    requires i < |form.education|
    requires forall k :: 0 <= k < |form.education| && k != i ==> form.education[k].id != form.education[i].id
    ensures RemoveEducation(form, form.education[i].id).education == form.education[..i] + form.education[i + 1..]
  {
    Seqs.FilterDropsAt(form.education, i, OtherEducation(form.education[i].id));
  }

  /** Removing an entry just added under an unused id gives back the form as it was. */
  lemma AddThenRemoveEducation(form: FormData, newId: string)
    requires forall i :: 0 <= i < |form.education| ==> form.education[i].id != newId
    ensures RemoveEducation(AddEducation(form, newId), newId) == form
  {
    var p := OtherEducation(newId);
    Seqs.FilterConcat(form.education, [BlankEducation(newId)], p);
    Seqs.FilterKeepsAll(form.education, p);
    assert Seqs.Filter([BlankEducation(newId)], p) == [];
  }

  /** The fields `handleSubmit` hands to `createResume`: the form, the owner, and `submitted`. */
  function SubmissionInput(form: FormData, userId: string): ResumePatch {
    ResumePatch(None, Some(userId), Some(form.personalInfo), Some(form.education), Some(form.experience),
                Some(form.skills), Some(form.certifications), Some(form.attachment), Some(Submitted),
                None, None)
  }

  /** What the submit leaves in storage and the resume it created, if any. */
  datatype SubmitOutcome = SubmitOutcome(store: Store, created: Option<Resume>)

  /** `handleSubmit`: without a logged-in user nothing happens; otherwise the form is stored
      as a `submitted` resume of that user, overriding the draft default. */
  function HandleSubmit(st: Store, form: FormData, resumeId: string, logId: string, now: Timestamp): (out: SubmitOutcome)
    ensures st.session.None? ==> out == SubmitOutcome(st, None)
    ensures st.session.Some? ==>
      && out.created.Some?
      && var r := out.created.value;
      && r.status == Submitted
      && r.userId == st.session.value.id
      && r.id == resumeId
      && r.personalInfo == form.personalInfo && r.attachment == form.attachment
      && r.education == form.education && r.experience == form.experience
      && r.skills == form.skills && r.certifications == form.certifications
      && r.createdAt == now && r.updatedAt == now
      && out.store.resumes == st.resumes + [r]
      && out.store.users == st.users && out.store.session == st.session
      && out.store.resetTokens == st.resetTokens
      && 0 < |out.store.logs| <= Audit.LogCap
      && out.store.logs[0] == AuditLog(logId, "CREATE_RESUME", st.session.value.id, resumeId, "Created new resume draft", now)
      && out.store.logs[1..] == st.logs[..Seqs.Min(|st.logs|, Audit.LogCap - 1)]
  {
    match st.session
    case None => SubmitOutcome(st, None)
    case Some(user) =>
      var out := Resumes.CreateResume(st, SubmissionInput(form, user.id), resumeId, logId, now);
      SubmitOutcome(out.store, Some(out.result.value))
  }
}

=== FILE: wrappers.dfy ===
/** Failure-carrying return types shared by every module of the model. */
module Wrappers {

  /** An optional value; `None` is JavaScript's `undefined` / `null`. */
  datatype Option<+T> = None | Some(value: T) {

    /** The wrapped value, or `default` when there is none. */
    function GetOr(default: T): T {
      match this
      case Some(v) => v
      case None => default
    }
  }

  /** The outcome of an operation that either returns a value or throws an error. */
  datatype Result<+T, +E> = Ok(value: T) | Err(error: E)
}
